=== FILE: README.md ===
# Appending a large number of datasets — a Dafny model

The script `appending_large_number_of_datasets.py` walks a folder of `.csv` and
`.xlsx` files and appends them into one table. Every file is checked against a
fixed reference schema of 16 columns (`year`, `month`, `erssn`, …,
`totalconamt`).

Column headers and sheet titles are compared through one canonical token:
- newlines become spaces;
- every character matched by `[\W_]` is removed;
- the text is lowercased and stripped.

A workbook is read from its first visible sheet whose title normalises to
`sheet1`. Rows whose cells are all null are dropped, and a file with nothing
left is skipped.

The header tokens are then reconciled with the reference in priority order:
1. If the token set equals the reference set, the file is accepted by name:
   columns are renamed to the reference and selected in reference order.
2. Otherwise, if there are exactly 16 headers, the file is accepted by
   position: the reference names are assigned column by column.
3. Otherwise the file is rejected with a mismatch record:
   - the missing reference columns,
   - the extra tokens,
   - the header count.

Accepted rows are tagged with their file's directory and file name. A file that
cannot be read becomes a failure record.

Once every file is processed:
- If any file was combined, up to 500 000 combined rows are written as a
  single workbook. Above that, they are cut into consecutive numbered parts of
  500 000 rows each, the last part holding the remainder.
- A mismatch report is written only when some file was mismatched, and a
  failure report only when some file failed. Each report row carries a serial
  number from 1, and the mismatch report also carries the expected count 16.

The model is pure and functional. Its modules are:

- `Normalize` (`normalize.dfy`): the token of a header or sheet title, and its
  algebra. The token is idempotent, ignores case and separators, and
  distributes over concatenation.
- `Schema` (`schema.dfy`): the reference columns, the rename map, and the
  three-way reconciliation `Reconcile`. It also models the selection of the
  reference columns after a rename, in the way a pandas frame selects by label,
  duplicates included.
- `Paths` (`paths.dfy`): POSIX `join`/`basename`/`dirname`, the candidate filter
  over a directory walk, and the lexicographic sort of the candidate paths.
- `Ingest` (`ingest.dfy`): worksheet selection, blank-row removal, and the
  emptiness test.
- `Aggregation` (`aggregate.dfy`): a file's outcome (combined, mismatched, failed
  or skipped) and the fold of outcomes into the three accumulators. The parsing
  library is a `Reader` parameter: `read_csv`, `load_workbook` and `read_excel`
  become total functions that return a table or an error message.
- `Output` (`output.dfy`): chunking of the combined rows, the report lines, and
  the final summary counts.
- `Wrappers` (`wrappers.dfy`): `Option` and `Result`.

Two behaviours of the code are worth stating plainly:
- The candidate filter of line 55 is case-sensitive (`file.endswith('.xlsx')`),
  so `data.CSV` is never a candidate. Only the reader dispatch of lines 67 and 71
  lowers the path.
- The rename map of line 101 is keyed by the original header. When several
  headers share a token, each of them is renamed to that reference column, and
  the selection of line 103 returns all of their columns.

## Model

| member | source | states |
|---|---|---|
| Normalize.NormalizeString | appending_large_number_of_datasets.py:26-40 | the token holds only lowercase ASCII letters and digits (no whitespace, newline, underscore or punctuation) and is never longer than the text |
| Normalize.PipelineIsNormalize | appending_large_number_of_datasets.py:36-40 | the four steps as written (newlines to spaces, `[\W_]` removed, lowercase, strip) give the same token as keeping the letters and digits and lowercasing them; the newline replacement and the strip are no-ops |
| Normalize.NormalizeIsLoweredAlnum | appending_large_number_of_datasets.py:38-40 | the token is the lowercased subsequence of letters and digits of the text |
| Normalize.NewlinesAreRemovedAnyway | appending_large_number_of_datasets.py:36-38 | replacing newlines by spaces before the removal of `[\W_]` changes nothing |
| Normalize.StripIsIdentityOnTokens | appending_large_number_of_datasets.py:40 | stripping a string of letters and digits leaves it unchanged |
| Normalize.NormalizeIdempotent | appending_large_number_of_datasets.py:26-40 | normalising a token again gives the same token |
| Normalize.NormalizeFixesTokens | appending_large_number_of_datasets.py:26-40 | a string of lowercase letters and digits is its own token |
| Normalize.NormalizeConcat | appending_large_number_of_datasets.py:26-40 | the token of a concatenation is the concatenation of the tokens |
| Normalize.NormalizeIgnoresSeparator | appending_large_number_of_datasets.py:36-38 | inserting or removing one non-alphanumeric character anywhere does not change the token |
| Normalize.NormalizeIgnoresCase | appending_large_number_of_datasets.py:40 | texts that agree after lowercasing have the same token |
| Normalize.NormalizeOfUpper | appending_large_number_of_datasets.py:40 | upper-casing a header does not change its token |
| Normalize.NormalizeHeaders | appending_large_number_of_datasets.py:42-44 | one token per header, in header order; each is made of lowercase letters and digits and is no longer than its header |
| Schema.StandardColumnsWellFormed | appending_large_number_of_datasets.py:18-23 | the reference has 16 pairwise distinct columns, each already its own token, so its set also has 16 elements |
| Schema.RenameMap | appending_large_number_of_datasets.py:101 | the rename map's keys are exactly the headers whose token is a reference column, and each maps to its token |
| Schema.RenameMapUnderByName | appending_large_number_of_datasets.py:100-101 | when the token set is the reference set, every header is renamed and the renamed names cover all 16 reference columns |
| Schema.Reconcile | appending_large_number_of_datasets.py:100-116 | exactly one of three outcomes: by name iff the token sets are equal (whatever the header count); by position iff they differ and there are 16 headers; rejected otherwise, with `missing = reference − tokens`, `extra = tokens − reference` and the header count |
| Schema.RejectionIsWellFormed | appending_large_number_of_datasets.py:108-115 | in a rejection, `missing` is within the reference, `extra` is disjoint from it, they do not overlap, they are not both empty, and the found count is never 16 |
| Schema.ByNameWithDistinctTokensHasSixteen | appending_large_number_of_datasets.py:100 | accepted by name with pairwise distinct tokens implies exactly 16 headers |
| Schema.ByNameRenamesToUniqueColumn | appending_large_number_of_datasets.py:101-102 | under acceptance by name each header is renamed to the one and only reference column equal to its token |
| Schema.SelectIsColumnsIn | appending_large_number_of_datasets.py:103 | selecting a list of distinct labels yields, as a multiset, exactly the cells whose label is in that list |
| Schema.ByNameSelectionPermutesRow | appending_large_number_of_datasets.py:100-103 | under acceptance by name, selecting the reference columns after the rename yields a permutation of the row's cells |
| Schema.ByNameSelectionIsReordering | appending_large_number_of_datasets.py:100-103 | under acceptance by name with distinct tokens the selected row has exactly 16 cells, and its k-th cell is the cell of the header whose token is the k-th reference column: the row is put in reference order |
| Schema.SelectDistinctLabels | appending_large_number_of_datasets.py:103 | selecting labels from a frame whose labels are distinct gives one cell per requested label, in request order, each the cell of the column carrying that label |
| Paths.JoinThenSplit | appending_large_number_of_datasets.py:53 | the basename of a joined path is the file name, and its dirname is the root when the root has no trailing slash |
| Paths.CandidatesMembers | appending_large_number_of_datasets.py:52-56 | a path is a candidate iff it joins a walked root with one of its file names ending (case-sensitively) in `.xlsx` or `.csv` |
| Paths.CandidatesHaveCandidateNames | appending_large_number_of_datasets.py:52-56 | every candidate path itself ends in `.xlsx` or `.csv`, because it ends with the file name it was joined with |
| Paths.CandidateNameExamples | appending_large_number_of_datasets.py:55 | `data.CSV` and `book.XLSX` are not candidates; the lock file `~$book.xlsx` is |
| Paths.SortPaths | appending_large_number_of_datasets.py:59 | the sorted paths are in lexicographic order and are a permutation of the candidates |
| Paths.SortedIsUnique | appending_large_number_of_datasets.py:59 | two sorted permutations of the same paths are equal |
| Paths.SortPathsIgnoresOrder | appending_large_number_of_datasets.py:59 | the processing order depends only on the multiset of candidate paths, not on the order of the walk |
| Ingest.FirstSheet1 | appending_large_number_of_datasets.py:77-80 | the index found is the first sheet that is visible and titled `sheet1` after normalisation, or none when no sheet qualifies |
| Ingest.SelectSheet | appending_large_number_of_datasets.py:75-83 | fails, with the script's message, iff no visible sheet normalises to `sheet1`; otherwise returns the title of the first one in workbook order |
| Ingest.HiddenSheet1IsIgnored | appending_large_number_of_datasets.py:75-83 | a hidden first sheet is never chosen whatever its title: the visible sheet after it is read iff its title normalises to `sheet1` |
| Ingest.HiddenSheet1Scenario | appending_large_number_of_datasets.py:75-83 | with a hidden "Sheet1", a visible "Sheet 1" is read and a visible "Data" makes the file fail |
| Ingest.SpacedTitleExample | appending_large_number_of_datasets.py:78 | the title "Sheet 1" normalises to `sheet1` |
| Ingest.DropBlankRows | appending_large_number_of_datasets.py:88 | the kept rows are exactly the rows with at least one non-null cell |
| Ingest.DropBlankRowsKeepsOrder | appending_large_number_of_datasets.py:88 | the k-th kept row is the row at the k-th non-blank position, so the original order is kept |
| Ingest.DropBlankRowsConcat | appending_large_number_of_datasets.py:88 | dropping blank rows distributes over concatenation of row lists |
| Ingest.DropBlankRowsIdempotent | appending_large_number_of_datasets.py:88 | dropping blank rows twice is dropping them once |
| Ingest.EmptyAfterDropIffAllBlank | appending_large_number_of_datasets.py:88-92 | a table is skipped as empty iff it has no columns or every one of its rows is blank |
| Aggregation.CandidatesAreDispatched | appending_large_number_of_datasets.py:67-71 | a path ending (case-sensitively) in `.csv` passes the lowered `.csv` test, and one ending in `.xlsx` fails it and passes the lowered `.xlsx` test |
| Aggregation.ProcessedPathsAreRead | appending_large_number_of_datasets.py:63-85 | every path the run processes is read by `read_csv` when it ends in `.csv` and otherwise ends in `.xlsx` and is read as a workbook through the chosen sheet; the fall-through with `df = None` is never taken |
| Aggregation.RelabelGivesTokens | appending_large_number_of_datasets.py:101-102 | after the by-name rename every column label is the token of its original header |
| Aggregation.ProcessTable | appending_large_number_of_datasets.py:87-121 | a table that was read is skipped iff empty after blank-row removal, is mismatched iff not empty and rejected (with the file name, directory and rejection sets), and otherwise is combined with one tagged row per kept row |
| Aggregation.ProcessFile | appending_large_number_of_datasets.py:63-128 | a file fails iff reading it fails, with its name, directory and the error message; otherwise its outcome is that of its table |
| Aggregation.AcceptedRowsCarryTheirCells | appending_large_number_of_datasets.py:100-121 | each combined row holds the cells of the corresponding kept row: unchanged by position, permuted by name, and with distinct tokens placed so that cell c is the cell of the header whose token is the c-th reference column |
| Aggregation.AcceptedRowsHaveEighteenCells | appending_large_number_of_datasets.py:103-120 | accepted rows have 16 reference cells plus the directory and file-name cells, when accepted by position or with distinct tokens |
| Aggregation.OutcomesConcat | appending_large_number_of_datasets.py:63 | the outcomes of two path lists one after the other are the outcomes of the joined list |
| Aggregation.AggregateConcat | appending_large_number_of_datasets.py:63-128 | processing paths in two halves and concatenating the accumulators equals processing them in one pass: every accumulator follows path order |
| Aggregation.RunIgnoresWalkOrder | appending_large_number_of_datasets.py:52-59 | the accumulators depend only on which candidates the walk yields, not on the order it yields them |
| Aggregation.CollectIsFiltered | appending_large_number_of_datasets.py:118-128 | each accumulator is the subsequence of outcomes of its kind, in file order |
| Aggregation.AggregateIsPartition | appending_large_number_of_datasets.py:63-128 | every file lands in exactly one place: combined, mismatched and failed counts plus skipped files equal the number of files |
| Aggregation.CombinedFramesComeFromFiles | appending_large_number_of_datasets.py:118-121 | every combined frame is the outcome of some processed path |
| Aggregation.CombinedCountIsAcceptedFiles | appending_large_number_of_datasets.py:121 | the number of combined frames equals the number of accepted files |
| Output.ChunkCountBounds | appending_large_number_of_datasets.py:137 | the chunk count is the ceiling of rows over chunk size: enough chunks, none superfluous, none for no rows |
| Output.ChunksPartitionRows | appending_large_number_of_datasets.py:142-145 | the chunks concatenate back to the rows, each is non-empty with at most 500 000 rows, and all but the last are full |
| Output.ChunkLength | appending_large_number_of_datasets.py:143-145 | chunk `i` is non-empty, at most the chunk size, and full unless it is the last |
| Output.ChunkingExample | appending_large_number_of_datasets.py:135-151 | 1 200 000 rows give three parts of 500 000, 500 000 and 200 000 rows |
| Output.CombinedArtifacts | appending_large_number_of_datasets.py:132-159 | no workbook without combined files; one unsplit workbook up to and including 500 000 rows; above, `ceil(n/500000)` parts numbered from 1, part i being the slice `[i*500000, (i+1)*500000)`, each non-empty and at most 500 000 rows, all but the last exactly 500 000; the written rows are the combined rows in order |
| Output.MismatchLines | appending_large_number_of_datasets.py:166-176 | one line per mismatch record, numbered from 1, with expected count 16 |
| Output.MismatchReportRoundTrip | appending_large_number_of_datasets.py:167-176 | every mismatch record can be read back from its line, and the serial numbers strictly increase |
| Output.FailureLines | appending_large_number_of_datasets.py:185-192 | one line per failure record, numbered from 1 |
| Output.FailureReportRoundTrip | appending_large_number_of_datasets.py:186-192 | every failure record can be read back from its line |
| Output.WriteAll | appending_large_number_of_datasets.py:130-195 | the combined workbooks are exactly `CombinedArtifacts` of the combined frames (nothing, one workbook up to 500 000 rows, or the numbered 500 000-row slices), holding the combined rows in order; each report is written iff it has at least one record, on the sheet `MismatchedFiles` or `FailedFiles`, with the header row of line 166 or 185 and exactly the report lines built from the records |
| Output.SummaryAccountsForEveryFile | appending_large_number_of_datasets.py:198-201 | the three printed counts plus the skipped files equal the number of candidates, and the combined count is the number of accepted files |

## Left out

- Path syntax: joining, `basename` and `dirname` follow POSIX (`/` separator) only. On Windows `os.path` is `ntpath`, which also splits on `\`, so the directory and file-name cells of accepted rows and reports would differ. The sort of line 59 would differ too: `\` (0x5C) orders after digits and upper-case letters, while `/` (0x2F) orders before them.
- Directory walking, reading and writing files (`os.walk`, `pd.read_csv`, `load_workbook`, `pd.read_excel`, `to_excel`, `Workbook.save`, `os.makedirs`): the walk is a parameter (a sequence of root and file-name lists), the readers are a `Reader` parameter of total functions, and the writers are replaced by the artifacts they would write.
- Every `print` and the bold header font are left out, and the model assumes printing never raises. The prints of lines 91 and 105 sit inside the per-file `try` of line 64, so if one raised (a `UnicodeEncodeError` for an undecodable file name on a strict UTF-8 stdout, or a `BrokenPipeError`), the `except` of line 123 would turn that skipped or position-accepted file into a failure record. `ProcessFile` does not model this. The `warnings.filterwarnings` call only silences messages.
- Normalize.NormalizeString: models only ASCII letters and digits as word characters. Python's `[\W_]` keeps non-ASCII letters and digits, and `.lower()` follows Unicode case mapping, under which some characters (e.g. 'İ') break idempotence. The `.strip()` is modelled over the ASCII whitespace characters.
- The `str(text)` coercion of non-string headers (numbers, NaN, None): headers are taken as already-coerced strings.
- The textual rendering of `missing` and `extra` via `str(list(set(...)))`: the order of a Python set depends on hash randomisation, so the model keeps them as sets.
- pandas column mechanics: the `Unnamed: N` and `.1` labels invented for blank or duplicate headers, and the column alignment of `pd.concat` across frames. Combined rows are sequences of cells in reference order, followed by the directory and file name.
- Cell types and NaN detection: a cell is `Option<string>`, with `None` for null.
- Aggregation.AcceptedRowsHaveEighteenCells: states the row width only when accepted by position or with distinct tokens. With repeated tokens pandas keeps every duplicate-labelled column, so the width is then the header count, which the permutation in `AcceptedRowsCarryTheirCells` already fixes.
- Output file names (`all_combined_data_{i}.xlsx` and the report names): the parts carry their 1-based number instead.
- The unreachable `df = None` path is modelled with the message Python would raise. `ProcessedPathsAreRead` shows that no processed path reaches it.

=== FILE: aggregate.dfy ===
/** The per-file pipeline (read, drop blank rows, reconcile, tag with
    provenance) and the fold over the sorted candidate paths that fills the
    three accumulators. */
module Aggregation {
  import opened Wrappers
  import opened Normalize
  import opened Schema
  import opened Paths
  import opened Ingest

  /** The parsing library, as seen by the script: each call either yields its
      result or raises with a message. */
  datatype Reader = Reader(
    readCsv: string -> Result<Table>,
    loadWorkbook: string -> Result<seq<SheetInfo>>,
    readExcel: (string, string) -> Result<Table>)

  /** What `df.dropna` raises when neither extension matched and `df` is `None`. */
  const NoTableError: string := "'NoneType' object has no attribute 'dropna'"

  datatype MismatchRecord = MismatchRecord(
    file: string, directory: string, missing: set<string>, extra: set<string>, foundCount: nat)

  datatype FailureRecord = FailureRecord(file: string, directory: string, reason: string)

  /** Where one file ends up: exactly one of the three accumulators, or nowhere. */
  datatype FileOutcome =
    | Combined(frame: seq<Row>)
    | Mismatched(mismatch: MismatchRecord)
    | Failed(failure: FailureRecord)
    | SkippedEmpty

  /** Lines 66-85: the reader is chosen by the lower-cased extension; a workbook
      is read from the sheet chosen by `SelectSheet`. */
  function ReadTable(reader: Reader, path: string): Result<Table> {
    var lower := LowerAll(path);
    if EndsWith(lower, ".csv") then reader.readCsv(path)
    else if EndsWith(lower, ".xlsx") then ReadWorkbook(reader, path)
    else Failure(NoTableError)
  }

  /** Lines 73-85: open the workbook, choose the sheet, read it. */
  function ReadWorkbook(reader: Reader, path: string): Result<Table> {
    match reader.loadWorkbook(path)
    case Failure(e) => Failure(e)
    case Success(sheets) =>
      match SelectSheet(sheets)
      case Failure(e) => Failure(e)
      case Success(title) => reader.readExcel(path, title)
  }

  /** Every path the run processes is read by the text reader when it ends in
      `.csv` and as a workbook otherwise, in which case it ends in `.xlsx`:
      the `df = None` fall-through is never taken. */
  lemma ProcessedPathsAreRead(reader: Reader, walk: seq<WalkEntry>, p: string)
    requires p in SortPaths(Candidates(walk))
    ensures EndsWith(p, ".csv") ==> ReadTable(reader, p) == reader.readCsv(p)
    ensures !EndsWith(p, ".csv") ==> EndsWith(p, ".xlsx") && ReadTable(reader, p) == ReadWorkbook(reader, p)
  {
    assert p in multiset(SortPaths(Candidates(walk)));
    assert p in Candidates(walk);
    CandidatesHaveCandidateNames(walk, p);
    CandidatesAreDispatched(p);
  }

  /** Every candidate takes one of the two reading branches, so the `df = None`
      path is never reached: `.csv` names are read as text, `.xlsx` names as
      workbooks. */
  lemma CandidatesAreDispatched(path: string)
    requires IsCandidateName(path)
    ensures EndsWith(path, ".csv") ==> EndsWith(LowerAll(path), ".csv")
    ensures EndsWith(path, ".xlsx") ==> !EndsWith(LowerAll(path), ".csv") && EndsWith(LowerAll(path), ".xlsx")
  {
    if EndsWith(path, ".csv") {
      CsvIsDispatched(path);
    }
    if EndsWith(path, ".xlsx") {
      XlsxIsDispatched(path);
    }
  }

  lemma CsvIsDispatched(path: string)
    requires EndsWith(path, ".csv")
    ensures EndsWith(LowerAll(path), ".csv")
  {
    LowerSuffix(path, ".csv");
  }

  lemma XlsxIsDispatched(path: string)
    requires EndsWith(path, ".xlsx")
    ensures !EndsWith(LowerAll(path), ".csv") && EndsWith(LowerAll(path), ".xlsx")
  {
    LowerSuffix(path, ".xlsx");
    SuffixesExclude(LowerAll(path), ".xlsx", ".csv");
  }

  lemma SuffixesExclude(s: string, a: string, b: string)
    requires EndsWith(s, a) && a != [] && b != [] && a[|a| - 1] != b[|b| - 1]
    ensures !EndsWith(s, b)
  {
    assert s[|s| - 1] == s[|s| - |a|..][|a| - 1];
  }

  lemma LowerSuffix(path: string, suffix: string)
    requires EndsWith(path, suffix)
    requires forall i :: 0 <= i < |suffix| ==> !IsUpper(suffix[i])
    ensures EndsWith(LowerAll(path), suffix)
  {
    var lower := LowerAll(path);
    var n := |path| - |suffix|;
    forall i | 0 <= i < |suffix| ensures lower[n..][i] == suffix[i] {
      assert lower[n + i] == ToLower(path[n + i]);
      assert path[n + i] == path[n..][i];
    }
  }

  /** The two provenance cells appended to every accepted row (lines 119-120). */
  function Provenance(path: string): Row {
    [Some(Dirname(path)), Some(Basename(path))]
  }

  /** A row whose last two cells are the provenance of `path`. */
  predicate TaggedWith(row: Row, path: string) {
    |row| >= 2 && row[|row| - 2..] == Provenance(path)
  }

  lemma Tagging(cells: Row, path: string)
    ensures TaggedWith(cells + Provenance(path), path)
    ensures (cells + Provenance(path))[..|cells|] == cells
  {
  }

  /** `df.rename(columns=rename)`: headers in the map get its value, the others
      keep their label. */
  function Relabel(headers: seq<string>, rename: map<string, string>): seq<string> {
    seq(|headers|, i requires 0 <= i < |headers| =>
      if headers[i] in rename then rename[headers[i]] else headers[i])
  }

  /** Under acceptance by name, the renamed labels are exactly the tokens, so
      selecting `standard_columns` from the renamed frame picks each column by
      its token. */
  lemma RelabelGivesTokens(headers: seq<string>)
    requires Reconcile(headers).ByName?
    ensures Relabel(headers, Reconcile(headers).rename) == NormalizeHeaders(headers)
  {
    assert TokenSet(headers) == StandardSet();
    var m := RenameMap(headers);
    assert Reconcile(headers).rename == m;
    RenameMapUnderByName(headers);
    var relabelled := Relabel(headers, m);
    var tokens := NormalizeHeaders(headers);
    assert |relabelled| == |tokens|;
    forall i | 0 <= i < |headers|
      ensures relabelled[i] == tokens[i]
    {
      assert headers[i] in headers;
    }
  }

  /** Lines 102-103 and 119-120 for one row. */
  function ByNameRow(headers: seq<string>, rename: map<string, string>, row: Row, path: string): Row {
    SelectColumns(Relabel(headers, rename), row, StandardColumns) + Provenance(path)
  }

  /** Lines 106-107 and 119-120 for one row: the cells stay in file order. */
  function PositionalRow(row: Row, path: string): Row {
    row + Provenance(path)
  }

  /** Lines 87-121 for a table that was read: skip it when nothing but blank
      rows remain, otherwise reconcile its headers and either tag its rows with
      their provenance or record the mismatch. */
  function ProcessTable(path: string, t: Table): (o: FileOutcome)
    ensures !o.Failed?
    ensures o.SkippedEmpty? <==> IsEmptyTable(t.headers, DropBlankRows(t.rows))
    ensures o.Mismatched? <==> (!IsEmptyTable(t.headers, DropBlankRows(t.rows)) && Reconcile(t.headers).Rejected?)
    ensures o.Mismatched? ==>
      o.mismatch == MismatchRecord(Basename(path), Dirname(path),
                                   Reconcile(t.headers).missing, Reconcile(t.headers).extra, Reconcile(t.headers).foundCount)
    ensures o.Combined? ==> |o.frame| == |DropBlankRows(t.rows)| > 0
    ensures o.Combined? ==> forall k :: 0 <= k < |o.frame| ==> TaggedWith(o.frame[k], path)
  {
    var rows := DropBlankRows(t.rows);
    if IsEmptyTable(t.headers, rows) then SkippedEmpty
    else
      var r := Reconcile(t.headers);
      if r.ByName? then
        var frame := seq(|rows|, k requires 0 <= k < |rows| => ByNameRow(t.headers, r.rename, rows[k], path));
        assert forall k :: 0 <= k < |frame| ==> TaggedWith(frame[k], path) by {
          forall k | 0 <= k < |frame| ensures TaggedWith(frame[k], path) {
            Tagging(SelectColumns(Relabel(t.headers, r.rename), rows[k], StandardColumns), path);
          }
        }
        Combined(frame)
      else if r.ByPosition? then
        var frame := seq(|rows|, k requires 0 <= k < |rows| => PositionalRow(rows[k], path));
        assert forall k :: 0 <= k < |frame| ==> TaggedWith(frame[k], path) by {
          forall k | 0 <= k < |frame| ensures TaggedWith(frame[k], path) {
            Tagging(rows[k], path);
          }
        }
        Combined(frame)
      else
        Mismatched(MismatchRecord(Basename(path), Dirname(path), r.missing, r.extra, r.foundCount))
  }

  /** Lines 64-128 for one file: a read error becomes a failure record, and
      nothing else does. */
  function ProcessFile(reader: Reader, path: string): (o: FileOutcome)
    ensures o.Failed? <==> ReadTable(reader, path).Failure?
    ensures o.Failed? ==> o.failure == FailureRecord(Basename(path), Dirname(path), ReadTable(reader, path).error)
    ensures ReadTable(reader, path).Success? ==> o == ProcessTable(path, ReadTable(reader, path).value)
  {
    match ReadTable(reader, path)
    case Failure(e) => Failed(FailureRecord(Basename(path), Dirname(path), e))
    case Success(t) => ProcessTable(path, t)
  }

  /** Every row the reader delivers has one cell per header. */
  predicate Rectangular(t: Table) {
    forall k :: 0 <= k < |t.rows| ==> |t.rows[k]| == |t.headers|
  }

  /** An accepted file contributes each of its non-blank rows once, in order:
      by position its cells are unchanged, by name they are a permutation of the
      row's cells, and with distinct tokens cell c is the cell of the header
      whose token is the c-th reference column; either way the provenance of the
      file follows. */
  lemma AcceptedRowsCarryTheirCells(path: string, t: Table, k: nat)
    requires ProcessTable(path, t).Combined?
    requires Rectangular(t)
    requires k < |ProcessTable(path, t).frame|
    ensures var row := ProcessTable(path, t).frame[k];
      && multiset(row[..|row| - 2]) == multiset(DropBlankRows(t.rows)[k])
      && (Reconcile(t.headers).ByPosition? ==> row[..|row| - 2] == DropBlankRows(t.rows)[k])
      && (Reconcile(t.headers).ByName? && Distinct(NormalizeHeaders(t.headers)) ==>
            && |row| == 18
            && forall c, j :: 0 <= c < 16 && 0 <= j < |t.headers| && NormalizeString(t.headers[j]) == StandardColumns[c] ==>
                 row[c] == DropBlankRows(t.rows)[k][j])
  {
    var kept := DropBlankRows(t.rows);
    var row := ProcessTable(path, t).frame[k];
    assert kept[k] in t.rows;
    var r := Reconcile(t.headers);
    if r.ByName? {
      RelabelGivesTokens(t.headers);
      ByNameSelectionPermutesRow(t.headers, kept[k]);
      var cells := SelectColumns(NormalizeHeaders(t.headers), kept[k], StandardColumns);
      assert row == cells + Provenance(path);
      Tagging(cells, path);
      if Distinct(NormalizeHeaders(t.headers)) {
        ByNameSelectionIsReordering(t.headers, kept[k]);
        assert forall c :: 0 <= c < 16 ==> row[c] == cells[c];
      }
    } else {
      assert row == kept[k] + Provenance(path);
      Tagging(kept[k], path);
    }
  }

  /** Accepted rows have the 16 reference cells plus the two provenance cells,
      whenever the file was accepted by position or its tokens are distinct. */
  lemma AcceptedRowsHaveEighteenCells(path: string, t: Table, k: nat)
    requires ProcessTable(path, t).Combined?
    requires Rectangular(t)
    requires k < |ProcessTable(path, t).frame|
    requires Reconcile(t.headers).ByPosition? || Distinct(NormalizeHeaders(t.headers))
    ensures |ProcessTable(path, t).frame[k]| == 18
  {
    var kept := DropBlankRows(t.rows);
    var row := ProcessTable(path, t).frame[k];
    AcceptedRowsCarryTheirCells(path, t, k);
    assert kept[k] in t.rows;
    StandardColumnsWellFormed();
    if Reconcile(t.headers).ByName? {
      ByNameWithDistinctTokensHasSixteen(t.headers);
    }
    assert |multiset(row[..|row| - 2])| == |multiset(kept[k])|;
  }

  // ---------------------------------------------------------------------------
  // The fold over all files (lines 47-49 and 63-128)

  datatype Accumulators = Accumulators(
    combined: seq<seq<Row>>, mismatched: seq<MismatchRecord>, failed: seq<FailureRecord>)

  const Empty := Accumulators([], [], [])

  /** Appends one file's outcome to the accumulator it belongs to. */
  function Record(acc: Accumulators, o: FileOutcome): Accumulators {
    match o
    case Combined(frame) => acc.(combined := acc.combined + [frame])
    case Mismatched(m) => acc.(mismatched := acc.mismatched + [m])
    case Failed(f) => acc.(failed := acc.failed + [f])
    case SkippedEmpty => acc
  }

  /** The outcome of each file, in processing order. */
  function Outcomes(reader: Reader, paths: seq<string>): (outs: seq<FileOutcome>)
    ensures |outs| == |paths|
    ensures forall i :: 0 <= i < |paths| ==> outs[i] == ProcessFile(reader, paths[i])
  {
    seq(|paths|, i requires 0 <= i < |paths| => ProcessFile(reader, paths[i]))
  }

  /** Appends the outcomes, one by one, to the accumulators. */
  function Collect(outs: seq<FileOutcome>): Accumulators {
    if outs == [] then Empty
    else Record(Collect(outs[..|outs| - 1]), outs[|outs| - 1])
  }

  /** The loop of lines 63-128 over `paths`. */
  function Aggregate(reader: Reader, paths: seq<string>): Accumulators {
    Collect(Outcomes(reader, paths))
  }

  /** The whole run: candidates of the walk, sorted, then folded. */
  function Run(reader: Reader, walk: seq<WalkEntry>): Accumulators {
    Aggregate(reader, SortPaths(Candidates(walk)))
  }

  /** The results do not depend on the order in which the walk lists the
      files: the same candidates always give the same accumulators. */
  lemma RunIgnoresWalkOrder(reader: Reader, w1: seq<WalkEntry>, w2: seq<WalkEntry>)
    requires multiset(Candidates(w1)) == multiset(Candidates(w2))
    ensures Run(reader, w1) == Run(reader, w2)
  {
    SortPathsIgnoresOrder(Candidates(w1), Candidates(w2));
  }

  function Concat(a: Accumulators, b: Accumulators): Accumulators {
    Accumulators(a.combined + b.combined, a.mismatched + b.mismatched, a.failed + b.failed)
  }

  lemma RecordAfterConcat(x: Accumulators, y: Accumulators, o: FileOutcome)
    ensures Record(Concat(x, y), o) == Concat(x, Record(y, o))
  {
    match o
    case Combined(f) => assert x.combined + y.combined + [f] == x.combined + (y.combined + [f]);
    case Mismatched(m) => assert x.mismatched + y.mismatched + [m] == x.mismatched + (y.mismatched + [m]);
    case Failed(e) => assert x.failed + y.failed + [e] == x.failed + (y.failed + [e]);
    case SkippedEmpty =>
  }

  lemma {:induction false} CollectConcat(a: seq<FileOutcome>, b: seq<FileOutcome>)
    ensures Collect(a + b) == Concat(Collect(a), Collect(b))
  {
    if b == [] {
      assert a + b == a;
    } else {
      var init := b[..|b| - 1];
      assert (a + b)[..|a + b| - 1] == a + init;
      assert (a + b)[|a + b| - 1] == b[|b| - 1];
      CollectConcat(a, init);
      RecordAfterConcat(Collect(a), Collect(init), b[|b| - 1]);
    }
  }

  /** Processing a list of files in two halves and concatenating the
      accumulators is processing it in one pass: results follow path order. */
  lemma AggregateConcat(reader: Reader, a: seq<string>, b: seq<string>)
    ensures Aggregate(reader, a + b) == Concat(Aggregate(reader, a), Aggregate(reader, b))
  {
    OutcomesConcat(reader, a, b);
    CollectConcat(Outcomes(reader, a), Outcomes(reader, b));
  }

  lemma OutcomesConcat(reader: Reader, a: seq<string>, b: seq<string>)
    ensures Outcomes(reader, a + b) == Outcomes(reader, a) + Outcomes(reader, b)
  {
    var whole, left, right := Outcomes(reader, a + b), Outcomes(reader, a), Outcomes(reader, b);
    forall i | 0 <= i < |a + b|
      ensures whole[i] == (left + right)[i]
    {
      if i < |a| {
        assert (a + b)[i] == a[i];
      } else {
        assert (a + b)[i] == b[i - |a|];
      }
    }
  }

  // Reference definitions of the accumulators as filters of the outcome list.

  function FramesOf(outs: seq<FileOutcome>): seq<seq<Row>> {
    if outs == [] then []
    else FramesOf(outs[..|outs| - 1]) + (if outs[|outs| - 1].Combined? then [outs[|outs| - 1].frame] else [])
  }

  function MismatchesOf(outs: seq<FileOutcome>): seq<MismatchRecord> {
    if outs == [] then []
    else MismatchesOf(outs[..|outs| - 1]) + (if outs[|outs| - 1].Mismatched? then [outs[|outs| - 1].mismatch] else [])
  }

  function FailuresOf(outs: seq<FileOutcome>): seq<FailureRecord> {
    if outs == [] then []
    else FailuresOf(outs[..|outs| - 1]) + (if outs[|outs| - 1].Failed? then [outs[|outs| - 1].failure] else [])
  }

  function SkippedCount(outs: seq<FileOutcome>): nat {
    if outs == [] then 0
    else SkippedCount(outs[..|outs| - 1]) + (if outs[|outs| - 1].SkippedEmpty? then 1 else 0)
  }

  /** The accumulators are the outcome list split by kind, each in path order. */
  lemma {:induction false} CollectIsFiltered(outs: seq<FileOutcome>)
    ensures Collect(outs) == Accumulators(FramesOf(outs), MismatchesOf(outs), FailuresOf(outs))
  {
    if outs != [] {
      CollectIsFiltered(outs[..|outs| - 1]);
    }
  }

  /** Every outcome is counted exactly once across the three lists and the
      skipped files. */
  lemma {:induction false} OutcomesArePartitioned(outs: seq<FileOutcome>)
    ensures |FramesOf(outs)| + |MismatchesOf(outs)| + |FailuresOf(outs)| + SkippedCount(outs) == |outs|
  {
    if outs != [] {
      OutcomesArePartitioned(outs[..|outs| - 1]);
    }
  }

  /** Each candidate file lands in exactly one place: the three accumulator
      lengths plus the skipped files add up to the number of files. */
  lemma AggregateIsPartition(reader: Reader, paths: seq<string>)
    ensures var acc := Aggregate(reader, paths);
      |acc.combined| + |acc.mismatched| + |acc.failed| + SkippedCount(Outcomes(reader, paths)) == |paths|
  {
    CollectIsFiltered(Outcomes(reader, paths));
    OutcomesArePartitioned(Outcomes(reader, paths));
  }

  lemma {:induction false} CollectedFramesAreOutcomes(outs: seq<FileOutcome>, k: nat)
    requires k < |Collect(outs).combined|
    ensures exists i :: 0 <= i < |outs| && outs[i] == Combined(Collect(outs).combined[k])
  {
    var init := outs[..|outs| - 1];
    var last := outs[|outs| - 1];
    if k < |Collect(init).combined| {
      CollectedFramesAreOutcomes(init, k);
      var i :| 0 <= i < |init| && init[i] == Combined(Collect(init).combined[k]);
      assert outs[i] == init[i];
    } else {
      assert last == Combined(Collect(outs).combined[k]);
    }
  }

  /** Every combined frame is the frame of some processed file; by the contract
      of `ProcessTable` it carries that file's directory and name on each row. */
  lemma CombinedFramesComeFromFiles(reader: Reader, paths: seq<string>, k: nat)
    requires k < |Aggregate(reader, paths).combined|
    ensures exists i :: 0 <= i < |paths| && ProcessFile(reader, paths[i]) == Combined(Aggregate(reader, paths).combined[k])
  {
    var outs := Outcomes(reader, paths);
    CollectedFramesAreOutcomes(outs, k);
    var i :| 0 <= i < |outs| && outs[i] == Combined(Collect(outs).combined[k]);
    assert ProcessFile(reader, paths[i]) == outs[i];
  }

  /** The "Successfully combined files" count of line 199 is the number of files
      accepted by name or by position. */
  lemma CombinedCountIsAcceptedFiles(reader: Reader, paths: seq<string>)
    ensures |Aggregate(reader, paths).combined| == AcceptedCount(Outcomes(reader, paths))
  {
    CollectIsFiltered(Outcomes(reader, paths));
    FramesCountAccepted(Outcomes(reader, paths));
  }

  /** The number of files accepted by name or by position. */
  function AcceptedCount(outs: seq<FileOutcome>): nat {
    |set i | 0 <= i < |outs| && outs[i].Combined?|
  }

  lemma {:induction false} FramesCountAccepted(outs: seq<FileOutcome>)
    ensures |FramesOf(outs)| == AcceptedCount(outs)
  {
    if outs != [] {
      var init := outs[..|outs| - 1];
      FramesCountAccepted(init);
      var last := |outs| - 1;
      var before := set i | 0 <= i < |init| && init[i].Combined?;
      var now := set i | 0 <= i < |outs| && outs[i].Combined?;
      if outs[last].Combined? {
        assert now == before + {last};
      } else {
        assert now == before;
      }
    }
  }
}

=== FILE: ingest.dfy ===
/** Reading one file: worksheet selection for workbooks and removal of rows
    whose cells are all null. */
module Ingest {
  import opened Wrappers
  import opened Normalize
  import opened Schema

  type Row = seq<Cell>

  /** A table as the reader returns it: header labels and data rows. */
  datatype Table = Table(headers: seq<string>, rows: seq<Row>)

  /** openpyxl's `sheet_state`. */
  datatype SheetState = Visible | Hidden | VeryHidden

  datatype SheetInfo = SheetInfo(title: string, state: SheetState)

  const NoSheetError: string := "No VISIBLE sheet named 'sheet1' (after normalization) was found."

  /** A sheet the loop of lines 77-80 would stop at. */
  predicate IsSheet1(s: SheetInfo) {
    s.state == Visible && NormalizeString(s.title) == "sheet1"
  }

  /** Position of the first `true` flag. */
  function FirstTrue(flags: seq<bool>): (r: Option<nat>)
    ensures r.None? <==> forall i :: 0 <= i < |flags| ==> !flags[i]
    ensures r.Some? ==> r.value < |flags| && flags[r.value]
    ensures r.Some? ==> forall j :: 0 <= j < r.value ==> !flags[j]
  {
    if flags == [] then None
    else if flags[0] then Some(0)
    else
      var r := FirstTrue(flags[1..]);
      if r.Some? then Some(r.value + 1) else None
  }

  /** Position of the first visible sheet whose normalised title is `sheet1`. */
  function FirstSheet1(sheets: seq<SheetInfo>): (r: Option<nat>)
    ensures r.None? <==> forall i :: 0 <= i < |sheets| ==> !IsSheet1(sheets[i])
    ensures r.Some? ==> r.value < |sheets| && IsSheet1(sheets[r.value])
    ensures r.Some? ==> forall j :: 0 <= j < r.value ==> !IsSheet1(sheets[j])
  {
    var flags := seq(|sheets|, i requires 0 <= i < |sheets| => IsSheet1(sheets[i]));
    assert forall i :: 0 <= i < |sheets| ==> flags[i] == IsSheet1(sheets[i]);
    FirstTrue(flags)
  }

  /** Lines 75-83: the title of the first visible sheet whose normalised title
      is `sheet1`, in workbook order, or the error raised when there is none. */
  function SelectSheet(sheets: seq<SheetInfo>): (r: Result<string>)
    ensures r.Failure? <==> forall i :: 0 <= i < |sheets| ==> !IsSheet1(sheets[i])
    ensures r.Failure? ==> r.error == NoSheetError
    ensures r.Success? ==> exists i :: (0 <= i < |sheets| && sheets[i].title == r.value
                                        && IsSheet1(sheets[i]) && forall j :: 0 <= j < i ==> !IsSheet1(sheets[j]))
  {
    match FirstSheet1(sheets)
    case None => Failure(NoSheetError)
    case Some(i) => Success(sheets[i].title)
  }

  lemma SpacedTitleExample()
    ensures NormalizeString("Sheet 1") == "sheet1"
  {
    NormalizeIgnoresSeparator("Sheet", ' ', "1");
    assert "Sheet" + [' '] + "1" == "Sheet 1" && "Sheet" + "1" == "Sheet1";
    Sheet1TitleExample();
  }

  lemma Sheet1TitleExample()
    ensures NormalizeString("Sheet1") == "sheet1"
  {
    CaseExample("Sheet1", "sheet1");
  }

  lemma DataTitleExample()
    ensures NormalizeString("Data") == "data"
  {
    CaseExample("Data", "data");
  }

  lemma CaseExample(s: string, t: string)
    requires IsToken(t) && LowerAll(s) == t
    ensures NormalizeString(s) == t
  {
    KeepAlnumKeepsAlnumOnly(t);
    NormalizeIgnoresCase(s, t);
    NormalizeFixesTokens(t);
  }

  /** A hidden sheet is skipped whatever its title, even "Sheet1": with a
      visible sheet after it, the workbook is read from that sheet exactly when
      its title normalises to `sheet1`, and fails otherwise. */
  lemma HiddenSheet1IsIgnored(hiddenTitle: string, otherTitle: string)
    ensures var r := SelectSheet([SheetInfo(hiddenTitle, Hidden), SheetInfo(otherTitle, Visible)]);
      && (r.Success? <==> NormalizeString(otherTitle) == "sheet1")
      && (r.Success? ==> r.value == otherTitle)
      && (r.Failure? ==> r.error == NoSheetError)
  {
    var sheets := [SheetInfo(hiddenTitle, Hidden), SheetInfo(otherTitle, Visible)];
    var r := SelectSheet(sheets);
    assert !IsSheet1(sheets[0]);
    assert IsSheet1(sheets[1]) <==> NormalizeString(otherTitle) == "sheet1";
    if r.Success? {
      var i :| 0 <= i < |sheets| && sheets[i].title == r.value && IsSheet1(sheets[i]);
      assert i == 1;
    }
  }

  /** The two workbooks of the hidden-"Sheet1" scenario: a visible "Sheet 1" is
      read, a visible "Data" is not. */
  lemma HiddenSheet1Scenario()
    ensures SelectSheet([SheetInfo("Sheet1", Hidden), SheetInfo("Sheet 1", Visible)]) == Success("Sheet 1")
    ensures SelectSheet([SheetInfo("Sheet1", Hidden), SheetInfo("Data", Visible)]) == Failure(NoSheetError)
  {
    HiddenSheet1IsIgnored("Sheet1", "Sheet 1");
    HiddenSheet1IsIgnored("Sheet1", "Data");
    SpacedTitleExample();
    DataTitleExample();
  }

  /** A row all of whose cells are null (`dropna(how='all')`). */
  predicate IsBlank(row: Row) {
    forall i :: 0 <= i < |row| ==> row[i].None?
  }

  /** Line 88: the rows with at least one non-null cell, in their order. */
  function DropBlankRows(rows: seq<Row>): (r: seq<Row>)
    ensures |r| <= |rows|
    ensures forall k :: 0 <= k < |r| ==> !IsBlank(r[k])
    ensures forall x :: x in r <==> x in rows && !IsBlank(x)
  {
    if rows == [] then []
    else
      var init := rows[..|rows| - 1];
      var last := rows[|rows| - 1];
      assert rows == init + [last];
      DropBlankRows(init) + (if IsBlank(last) then [] else [last])
  }

  /** Indices of the non-blank rows, ascending. */
  function NonBlankIndices(rows: seq<Row>): (idx: seq<nat>)
    ensures forall k :: 0 <= k < |idx| ==> idx[k] < |rows| && !IsBlank(rows[idx[k]])
    ensures forall k, l :: 0 <= k < l < |idx| ==> idx[k] < idx[l]
    ensures forall i :: 0 <= i < |rows| && !IsBlank(rows[i]) ==> i in idx
  {
    if rows == [] then []
    else
      var init := rows[..|rows| - 1];
      NonBlankIndices(init) + (if IsBlank(rows[|rows| - 1]) then [] else [|rows| - 1])
  }

  /** Dropping blank rows keeps exactly the non-blank rows, in their original
      order: the k-th kept row is the row at the k-th non-blank index. */
  lemma {:induction false} DropBlankRowsKeepsOrder(rows: seq<Row>)
    ensures var idx := NonBlankIndices(rows);
      |DropBlankRows(rows)| == |idx|
      && forall k :: 0 <= k < |idx| ==> DropBlankRows(rows)[k] == rows[idx[k]]
  {
    if rows != [] {
      var init := rows[..|rows| - 1];
      var last := rows[|rows| - 1];
      DropBlankRowsKeepsOrder(init);
      var idx0 := NonBlankIndices(init);
      var kept0 := DropBlankRows(init);
      var tail := if IsBlank(last) then [] else [|rows| - 1];
      assert NonBlankIndices(rows) == idx0 + tail;
      assert DropBlankRows(rows) == kept0 + (if IsBlank(last) then [] else [last]);
      ExtendKeptRows(rows, idx0, kept0, tail);
    }
  }

  /** One step of the induction above: indices into the prefix still pick the
      same rows, and the optional last index picks the last row. */
  lemma ExtendKeptRows(rows: seq<Row>, idx0: seq<nat>, kept0: seq<Row>, tail: seq<nat>)
    requires rows != []
    requires |kept0| == |idx0|
    requires forall k :: 0 <= k < |idx0| ==> idx0[k] < |rows| - 1 && kept0[k] == rows[..|rows| - 1][idx0[k]]
    requires tail == [] || tail == [|rows| - 1]
    ensures var kept := kept0 + (if tail == [] then [] else [rows[|rows| - 1]]);
      |kept| == |idx0 + tail|
      && forall k :: 0 <= k < |idx0 + tail| ==> (idx0 + tail)[k] < |rows| && kept[k] == rows[(idx0 + tail)[k]]
  {
    var kept := kept0 + (if tail == [] then [] else [rows[|rows| - 1]]);
    forall k | 0 <= k < |idx0 + tail|
      ensures (idx0 + tail)[k] < |rows| && kept[k] == rows[(idx0 + tail)[k]]
    {
      if k < |idx0| {
        assert (idx0 + tail)[k] == idx0[k] && kept[k] == kept0[k];
      }
    }
  }

  lemma {:induction false} DropBlankRowsConcat(a: seq<Row>, b: seq<Row>)
    ensures DropBlankRows(a + b) == DropBlankRows(a) + DropBlankRows(b)
  {
    if b == [] {
      assert a + b == a;
    } else {
      var init := b[..|b| - 1];
      assert (a + b)[..|a + b| - 1] == a + init;
      assert (a + b)[|a + b| - 1] == b[|b| - 1];
      DropBlankRowsConcat(a, init);
    }
  }

  /** Dropping blank rows twice is dropping them once. */
  lemma {:induction false} DropBlankRowsIdempotent(rows: seq<Row>)
    ensures DropBlankRows(DropBlankRows(rows)) == DropBlankRows(rows)
  {
    if rows != [] {
      var init := rows[..|rows| - 1];
      var last := rows[|rows| - 1];
      DropBlankRowsIdempotent(init);
      DropBlankRowsConcat(DropBlankRows(init), if IsBlank(last) then [] else [last]);
    }
  }

  /** `df.empty` after the blank rows are gone: no rows or no columns. */
  predicate IsEmptyTable(headers: seq<string>, rows: seq<Row>) {
    rows == [] || headers == []
  }

  /** A table is left empty exactly when every row of it is blank (or it has
      no columns at all). */
  lemma EmptyAfterDropIffAllBlank(t: Table)
    ensures IsEmptyTable(t.headers, DropBlankRows(t.rows))
      <==> t.headers == [] || forall k :: 0 <= k < |t.rows| ==> IsBlank(t.rows[k])
  {
    var kept := DropBlankRows(t.rows);
    if kept != [] {
      assert kept[0] in t.rows;
    }
    if exists k :: 0 <= k < |t.rows| && !IsBlank(t.rows[k]) {
      var k :| 0 <= k < |t.rows| && !IsBlank(t.rows[k]);
      assert t.rows[k] in kept;
    }
  }
}

=== FILE: normalize.dfy ===
/** Header and sheet-title normalisation: the canonical token used for every
    comparison against the reference schema. Characters are modelled over the
    ASCII letters and digits (see README). */
module Normalize {

  predicate IsUpper(c: char) { 'A' <= c <= 'Z' }

  /** A character allowed in a canonical token. */
  predicate IsTokenChar(c: char) { 'a' <= c <= 'z' || '0' <= c <= '9' }

  /** A character that the pattern `[\W_]` leaves in place. */
  predicate IsAlnum(c: char) { IsUpper(c) || IsTokenChar(c) }

  /** The ASCII characters Python's `str.strip()` treats as whitespace. */
  predicate IsSpace(c: char) {
    c == ' ' || 9 <= c as int <= 13 || 28 <= c as int <= 31
  }

  /** A canonical token: lowercase letters and digits only. */
  predicate IsToken(s: string) {
    forall i :: 0 <= i < |s| ==> IsTokenChar(s[i])
  }

  function ToLower(c: char): char {
    if IsUpper(c) then (c as int + 32) as char else c
  }

  function ToUpper(c: char): char {
    if 'a' <= c <= 'z' then (c as int - 32) as char else c
  }

  function LowerAll(s: string): string {
    seq(|s|, i requires 0 <= i < |s| => ToLower(s[i]))
  }

  function UpperAll(s: string): string {
    seq(|s|, i requires 0 <= i < |s| => ToUpper(s[i]))
  }

  /** `text.replace('\n', ' ').replace('\r', ' ')`. */
  function ReplaceNewlines(s: string): (r: string)
    ensures |r| == |s|
    ensures '\n' !in r && '\r' !in r
    ensures forall i :: 0 <= i < |s| && IsAlnum(s[i]) ==> r[i] == s[i]
  {
    if s == [] then []
    else [if s[0] == '\n' || s[0] == '\r' then ' ' else s[0]] + ReplaceNewlines(s[1..])
  }

  /** `re.sub(r'[\W_]+', '', s)`: removes every character that is not a letter or digit. */
  function KeepAlnum(s: string): (r: string)
    ensures |r| <= |s|
    ensures forall i :: 0 <= i < |r| ==> IsAlnum(r[i])
  {
    if s == [] then []
    else (if IsAlnum(s[0]) then [s[0]] else []) + KeepAlnum(s[1..])
  }

  function StripLeft(s: string): (r: string)
    ensures r == [] || !IsSpace(r[0])
    ensures |r| <= |s| && r == s[|s| - |r|..]
  {
    if s != [] && IsSpace(s[0]) then StripLeft(s[1..]) else s
  }

  function StripRight(s: string): (r: string)
    ensures r == [] || !IsSpace(r[|r| - 1])
    ensures |r| <= |s| && r == s[..|r|]
  {
    if s != [] && IsSpace(s[|s| - 1]) then StripRight(s[..|s| - 1]) else s
  }

  /** `str.strip()`: removes leading and trailing whitespace. */
  function Strip(s: string): string {
    StripRight(StripLeft(s))
  }

  /** Lines 36-40 step by step: newlines to spaces, drop everything `[\W_]`
      matches, lowercase, strip. */
  function NormalizePipeline(text: string): string {
    Strip(LowerAll(KeepAlnum(ReplaceNewlines(text))))
  }

  /** `normalize_string`, one character at a time: letters and digits are kept
      (letters lowercased), every other character is dropped. */
  function NormalizeString(text: string): (r: string)
    ensures IsToken(r)
    ensures |r| <= |text|
  {
    if text == [] then []
    else (if IsAlnum(text[0]) then [ToLower(text[0])] else []) + NormalizeString(text[1..])
  }

  /** `normalize_headers`: the token of every header, position by position. */
  function NormalizeHeaders(cols: seq<string>): (r: seq<string>)
    ensures |r| == |cols|
    ensures forall i :: 0 <= i < |cols| ==> r[i] == NormalizeString(cols[i])
    ensures forall i :: 0 <= i < |r| ==> IsToken(r[i]) && |r[i]| <= |cols[i]|
  {
    seq(|cols|, i requires 0 <= i < |cols| => NormalizeString(cols[i]))
  }

  // ---------------------------------------------------------------------------
  // Properties

  /** The trailing `.strip()` never changes a token: its whitespace is already gone. */
  lemma {:induction false} StripIsIdentityOnTokens(s: string)
    requires IsToken(s)
    ensures Strip(s) == s
  {
    if s != [] {
      assert !IsSpace(s[0]);
      assert !IsSpace(s[|s| - 1]);
    }
  }

  /** Lowercasing letters and digits yields a token. */
  lemma LoweredAlnumIsToken(s: string)
    requires forall i :: 0 <= i < |s| ==> IsAlnum(s[i])
    ensures IsToken(LowerAll(s))
  {
    forall i | 0 <= i < |s|
      ensures IsTokenChar(LowerAll(s)[i])
    {
      assert LowerAll(s)[i] == ToLower(s[i]);
    }
  }

  lemma {:induction false} KeepAlnumConcat(a: string, b: string)
    ensures KeepAlnum(a + b) == KeepAlnum(a) + KeepAlnum(b)
  {
    if a == [] {
      assert a + b == b;
    } else {
      assert (a + b)[0] == a[0];
      assert (a + b)[1..] == a[1..] + b;
      KeepAlnumConcat(a[1..], b);
    }
  }

  /** Replacing newlines by spaces has no effect: both are removed afterwards. */
  lemma {:induction false} NewlinesAreRemovedAnyway(s: string)
    ensures KeepAlnum(ReplaceNewlines(s)) == KeepAlnum(s)
  {
    if s != [] {
      NewlinesAreRemovedAnyway(s[1..]);
    }
  }

  lemma {:induction false} LowerAllConcat(a: string, b: string)
    ensures LowerAll(a + b) == LowerAll(a) + LowerAll(b)
  {
    assert forall i :: 0 <= i < |a + b| ==> LowerAll(a + b)[i] == (LowerAll(a) + LowerAll(b))[i];
  }

  /** The token is the lowercased alphanumeric subsequence. */
  lemma {:induction false} NormalizeIsLoweredAlnum(s: string)
    ensures NormalizeString(s) == LowerAll(KeepAlnum(s))
  {
    if s != [] {
      NormalizeIsLoweredAlnum(s[1..]);
      LowerAllConcat(if IsAlnum(s[0]) then [s[0]] else [], KeepAlnum(s[1..]));
    }
  }

  /** The character-wise definition is the script's pipeline: the newline
      replacement and the final strip change nothing. */
  lemma PipelineIsNormalize(text: string)
    ensures NormalizePipeline(text) == NormalizeString(text)
  {
    NewlinesAreRemovedAnyway(text);
    LoweredAlnumIsToken(KeepAlnum(text));
    StripIsIdentityOnTokens(LowerAll(KeepAlnum(text)));
    NormalizeIsLoweredAlnum(text);
  }

  /** Normalisation distributes over concatenation. */
  lemma NormalizeConcat(a: string, b: string)
    ensures NormalizeString(a + b) == NormalizeString(a) + NormalizeString(b)
  {
    NormalizeIsLoweredAlnum(a + b);
    NormalizeIsLoweredAlnum(a);
    NormalizeIsLoweredAlnum(b);
    KeepAlnumConcat(a, b);
    LowerAllConcat(KeepAlnum(a), KeepAlnum(b));
  }

  lemma SeparatorVanishes(c: char)
    requires !IsAlnum(c)
    ensures NormalizeString([c]) == []
  {
    NormalizeIsLoweredAlnum([c]);
    assert KeepAlnum([c]) == [] + KeepAlnum([c][1..]);
  }

  /** Inserting or removing a separator (whitespace, newline, underscore,
      punctuation) does not change the token. */
  lemma NormalizeIgnoresSeparator(a: string, c: char, b: string)
    requires !IsAlnum(c)
    ensures NormalizeString(a + [c] + b) == NormalizeString(a + b)
  {
    NormalizeConcat(a + [c], b);
    NormalizeConcat(a, [c]);
    NormalizeConcat(a, b);
    SeparatorVanishes(c);
    assert NormalizeString(a + [c]) == NormalizeString(a);
  }

  /** A token is its own normal form. */
  lemma {:induction false} NormalizeFixesTokens(t: string)
    requires IsToken(t)
    ensures NormalizeString(t) == t
  {
    NormalizeIsLoweredAlnum(t);
    KeepAlnumKeepsAlnumOnly(t);
  }

  lemma {:induction false} KeepAlnumKeepsAlnumOnly(t: string)
    requires IsToken(t)
    ensures KeepAlnum(t) == t
    ensures LowerAll(t) == t
  {
    if t != [] {
      KeepAlnumKeepsAlnumOnly(t[1..]);
      assert t == [t[0]] + t[1..];
    }
  }

  /** Normalisation is idempotent. */
  lemma NormalizeIdempotent(s: string)
    ensures NormalizeString(NormalizeString(s)) == NormalizeString(s)
  {
    NormalizeFixesTokens(NormalizeString(s));
  }

  lemma {:induction false} LowerCommutesWithKeepAlnum(s: string)
    ensures LowerAll(KeepAlnum(s)) == KeepAlnum(LowerAll(s))
  {
    if s != [] {
      LowerCommutesWithKeepAlnum(s[1..]);
      assert LowerAll(s)[1..] == LowerAll(s[1..]);
      LowerAllConcat(if IsAlnum(s[0]) then [s[0]] else [], KeepAlnum(s[1..]));
    }
  }

  /** Headers that differ only in letter case have the same token. */
  lemma NormalizeIgnoresCase(s: string, t: string)
    requires LowerAll(s) == LowerAll(t)
    ensures NormalizeString(s) == NormalizeString(t)
  {
    NormalizeIsLoweredAlnum(s);
    NormalizeIsLoweredAlnum(t);
    LowerCommutesWithKeepAlnum(s);
    LowerCommutesWithKeepAlnum(t);
  }

  /** Upper-casing a header does not change its token. */
  lemma NormalizeOfUpper(s: string)
    ensures NormalizeString(UpperAll(s)) == NormalizeString(s)
  {
    assert LowerAll(UpperAll(s)) == LowerAll(s);
    NormalizeIgnoresCase(UpperAll(s), s);
  }
}

=== FILE: output.dfy ===
/** What the script writes once every file is processed: the combined rows,
    split into parts above 500 000 rows, and the two reports. The writers are
    left abstract: each artifact is returned as the rows it would hold. */
module Output {
  import opened Wrappers
  import opened Schema
  import opened Ingest
  import opened Aggregation

  /** `chunk_size` of line 136, also the threshold of line 135. */
  const ChunkSize: nat := 500000

  /** `pd.concat(combined_data, ignore_index=True)`: the frames one after another. */
  function Flatten(frames: seq<seq<Row>>): seq<Row> {
    if frames == [] then []
    else Flatten(frames[..|frames| - 1]) + frames[|frames| - 1]
  }

  function Min(a: int, b: int): int {
    if a <= b then a else b
  }

  /** `math.ceil(n / c)` for a positive chunk size. */
  function ChunkCount(n: nat, c: nat): nat
    requires c > 0
  {
    (n + c - 1) / c
  }

  /** `final_df.iloc[start:end]`: Python clamps both bounds to the length. */
  function Slice(rows: seq<Row>, start: nat, end: nat): seq<Row> {
    var lo := Min(start, |rows|);
    var hi := Min(end, |rows|);
    if hi < lo then [] else rows[lo..hi]
  }

  /** Lines 137-145: slice `i` covers rows `[i*c, (i+1)*c)` for every `i` below
      the chunk count. */
  function Chunks(rows: seq<Row>, c: nat): seq<seq<Row>>
    requires c > 0
  {
    seq(ChunkCount(|rows|, c), i requires 0 <= i < ChunkCount(|rows|, c) => Slice(rows, i * c, (i + 1) * c))
  }

  lemma ChunkCountBounds(n: nat, c: nat)
    requires c > 0
    ensures ChunkCount(n, c) * c >= n
    ensures n > 0 ==> (ChunkCount(n, c) - 1) * c < n
    ensures n == 0 <==> ChunkCount(n, c) == 0
  {
    var k := ChunkCount(n, c);
    var r := (n + c - 1) % c;
    assert n + c - 1 == k * c + r;
    assert (k - 1) * c == k * c - c;
  }

  /** Part `j` starts inside the rows and is the slice `[j*c, min((j+1)*c, n))`. */
  lemma ChunkAt(rows: seq<Row>, c: nat, j: nat)
    requires c > 0 && j < ChunkCount(|rows|, c)
    ensures j * c < |rows|
    ensures (j + 1) * c == j * c + c
    ensures Chunks(rows, c)[j] == rows[j * c..Min(j * c + c, |rows|)]
  {
    var k := ChunkCount(|rows|, c);
    ChunkCountBounds(|rows|, c);
    assert (k - 1) * c == j * c + (k - 1 - j) * c;
    assert (j + 1) * c == j * c + c;
  }

  /** The first `i` parts together are the first `i * c` rows. */
  lemma {:induction false} ChunksPrefix(rows: seq<Row>, c: nat, i: nat)
    requires c > 0
    requires i <= ChunkCount(|rows|, c)
    ensures Flatten(Chunks(rows, c)[..i]) == rows[..Min(i * c, |rows|)]
  {
    var cs := Chunks(rows, c);
    if i > 0 {
      var j := i - 1;
      ChunksPrefix(rows, c, j);
      ChunkAt(rows, c, j);
      var lo := j * c;
      var hi := Min(lo + c, |rows|);
      assert cs[..i][..j] == cs[..j];
      assert Flatten(cs[..i]) == Flatten(cs[..j]) + cs[j];
      assert Flatten(cs[..j]) == rows[..lo];
      assert rows[..hi] == rows[..lo] + rows[lo..hi];
    }
  }

  /** The parts are contiguous and in order: together they are exactly the
      combined rows, each holds between 1 and `c` rows, and every part but the
      last holds exactly `c`. */
  lemma ChunksPartitionRows(rows: seq<Row>, c: nat)
    requires c > 0
    ensures Flatten(Chunks(rows, c)) == rows
    ensures forall i :: 0 <= i < |Chunks(rows, c)| ==> 0 < |Chunks(rows, c)[i]| <= c
    ensures forall i :: 0 <= i < |Chunks(rows, c)| - 1 ==> |Chunks(rows, c)[i]| == c
  {
    var cs := Chunks(rows, c);
    var k := ChunkCount(|rows|, c);
    ChunksPrefix(rows, c, k);
    ChunkCountBounds(|rows|, c);
    assert cs[..k] == cs;
    forall i | 0 <= i < k ensures 0 < |cs[i]| <= c && (i < k - 1 ==> |cs[i]| == c) {
      ChunkLength(rows, c, i);
    }
  }

  lemma ChunkLength(rows: seq<Row>, c: nat, i: nat)
    requires c > 0 && i < ChunkCount(|rows|, c)
    ensures 0 < |Chunks(rows, c)[i]| <= c
    ensures i < ChunkCount(|rows|, c) - 1 ==> |Chunks(rows, c)[i]| == c
  {
    ChunkAt(rows, c, i);
    if i < ChunkCount(|rows|, c) - 1 {
      ChunkAt(rows, c, i + 1);
    }
  }

  /** 1 200 000 rows are written as three parts of 500 000, 500 000 and
      200 000 rows. */
  lemma ChunkingExample(rows: seq<Row>)
    requires |rows| == 1200000
    ensures |Chunks(rows, ChunkSize)| == 3
    ensures |Chunks(rows, ChunkSize)[0]| == 500000
    ensures |Chunks(rows, ChunkSize)[1]| == 500000
    ensures |Chunks(rows, ChunkSize)[2]| == 200000
  {
    assert ChunkCount(1200000, 500000) == 3;
  }

  /** One output workbook of combined rows. */
  datatype Artifact = SingleFile(rows: seq<Row>) | Part(number: nat, rows: seq<Row>)

  function ArtifactRows(parts: seq<Artifact>): seq<Row> {
    if parts == [] then []
    else ArtifactRows(parts[..|parts| - 1]) + parts[|parts| - 1].rows
  }

  /** Lines 132-159: nothing when no file was combined, one unsplit workbook up
      to 500 000 rows (inclusive), numbered parts above. */
  function CombinedArtifacts(frames: seq<seq<Row>>): (parts: seq<Artifact>)
    ensures frames == [] ==> parts == []
    ensures frames != [] && |Flatten(frames)| <= ChunkSize ==> parts == [SingleFile(Flatten(frames))]
    ensures frames != [] && |Flatten(frames)| > ChunkSize ==>
      && |parts| == ChunkCount(|Flatten(frames)|, ChunkSize) >= 2
      && (forall i :: 0 <= i < |parts| ==> (parts[i].Part? && parts[i].number == i + 1
                                           && parts[i].rows == Chunks(Flatten(frames), ChunkSize)[i]
                                           && 0 < |parts[i].rows| <= ChunkSize))
      && (forall i :: 0 <= i < |parts| - 1 ==> |parts[i].rows| == ChunkSize)
    ensures ArtifactRows(parts) == Flatten(frames)
  {
    if frames == [] then []
    else
      var all := Flatten(frames);
      if |all| > ChunkSize then
        var cs := Chunks(all, ChunkSize);
        var parts := seq(|cs|, i requires 0 <= i < |cs| => Part(i + 1, cs[i]));
        ChunksPartitionRows(all, ChunkSize);
        ChunkCountBounds(|all|, ChunkSize);
        PartsRows(cs, parts);
        parts
      else
        assert ArtifactRows([SingleFile(all)]) == ArtifactRows([]) + all;
        [SingleFile(all)]
  }

  lemma {:induction false} PartsRows(cs: seq<seq<Row>>, parts: seq<Artifact>)
    requires |parts| == |cs|
    requires forall i :: 0 <= i < |cs| ==> parts[i].rows == cs[i]
    ensures ArtifactRows(parts) == Flatten(cs)
  {
    if cs != [] {
      PartsRows(cs[..|cs| - 1], parts[..|parts| - 1]);
    }
  }

  // ---------------------------------------------------------------------------
  // Reports (lines 162-195)

  /** The header rows of lines 166 and 185. */
  const MismatchHeader: seq<string> := ["Sr. No.", "File Name", "Directory", "Expected Column Count",
                                        "Found Column Count", "Missing Standard Columns", "Extra Columns Found"]
  const FailureHeader: seq<string> := ["Sr. No.", "File Name", "Directory", "Reason of Failed"]

  datatype MismatchLine = MismatchLine(
    serial: nat, file: string, directory: string, expected: nat, found: nat,
    missing: set<string>, extra: set<string>)

  datatype FailureLine = FailureLine(serial: nat, file: string, directory: string, reason: string)

  /** Lines 167-176: one line per mismatched file, numbered from 1, with the
      expected count 16. */
  function MismatchLines(ms: seq<MismatchRecord>): (lines: seq<MismatchLine>)
    ensures |lines| == |ms|
    ensures forall i :: 0 <= i < |ms| ==> lines[i].serial == i + 1 && lines[i].expected == 16
  {
    StandardColumnsWellFormed();
    seq(|ms|, i requires 0 <= i < |ms| =>
      MismatchLine(i + 1, ms[i].file, ms[i].directory, StandardColumnCount, ms[i].foundCount,
                   ms[i].missing, ms[i].extra))
  }

  /** Lines 186-192: one line per failed file, numbered from 1. */
  function FailureLines(fs: seq<FailureRecord>): (lines: seq<FailureLine>)
    ensures |lines| == |fs|
    ensures forall i :: 0 <= i < |fs| ==> lines[i].serial == i + 1
  {
    seq(|fs|, i requires 0 <= i < |fs| => FailureLine(i + 1, fs[i].file, fs[i].directory, fs[i].reason))
  }

  /** The mismatch report loses nothing: every record can be read back from
      its line, and the lines are numbered 1, 2, ... without gaps. */
  lemma MismatchReportRoundTrip(ms: seq<MismatchRecord>)
    ensures var lines := MismatchLines(ms);
      seq(|lines|, i requires 0 <= i < |lines| =>
        MismatchRecord(lines[i].file, lines[i].directory, lines[i].missing, lines[i].extra, lines[i].found)) == ms
    ensures var lines := MismatchLines(ms);
      forall i, j :: 0 <= i < j < |lines| ==> lines[i].serial < lines[j].serial
  {
  }

  /** The failure report loses nothing either. */
  lemma FailureReportRoundTrip(fs: seq<FailureRecord>)
    ensures var lines := FailureLines(fs);
      seq(|lines|, i requires 0 <= i < |lines| =>
        FailureRecord(lines[i].file, lines[i].directory, lines[i].reason)) == fs
  {
  }

  /** One report workbook: its sheet title, its bold header row and its lines. */
  datatype Report<L> = Report(title: string, header: seq<string>, lines: seq<L>)

  /** Everything the run writes: combined workbooks, and each report only
      when it has at least one line. */
  datatype Written = Written(
    combined: seq<Artifact>, mismatchReport: Option<Report<MismatchLine>>, failureReport: Option<Report<FailureLine>>)

  /** Lines 130-195. */
  function WriteAll(acc: Accumulators): (w: Written)
    ensures w.mismatchReport.Some? <==> acc.mismatched != []
    ensures w.failureReport.Some? <==> acc.failed != []
    ensures w.mismatchReport.Some? ==>
      && w.mismatchReport.value.title == "MismatchedFiles"
      && w.mismatchReport.value.header == MismatchHeader
      && w.mismatchReport.value.lines == MismatchLines(acc.mismatched)
    ensures w.failureReport.Some? ==>
      && w.failureReport.value.title == "FailedFiles"
      && w.failureReport.value.header == FailureHeader
      && w.failureReport.value.lines == FailureLines(acc.failed)
    ensures w.combined == CombinedArtifacts(acc.combined)
    ensures ArtifactRows(w.combined) == Flatten(acc.combined)
  {
    Written(
      CombinedArtifacts(acc.combined),
      if acc.mismatched != [] then Some(Report("MismatchedFiles", MismatchHeader, MismatchLines(acc.mismatched))) else None,
      if acc.failed != [] then Some(Report("FailedFiles", FailureHeader, FailureLines(acc.failed))) else None)
  }

  /** The counts printed by lines 199-201. */
  datatype Summary = Summary(combinedFiles: nat, mismatchedFiles: nat, failedFiles: nat)

  function Summarize(acc: Accumulators): Summary {
    Summary(|acc.combined|, |acc.mismatched|, |acc.failed|)
  }

  /** The three counts of the summary never exceed the number of candidates,
      and fall short of it by exactly the number of files skipped as empty. */
  lemma SummaryAccountsForEveryFile(reader: Reader, paths: seq<string>)
    ensures var s := Summarize(Aggregate(reader, paths));
      s.combinedFiles + s.mismatchedFiles + s.failedFiles + SkippedCount(Outcomes(reader, paths)) == |paths|
    ensures Summarize(Aggregate(reader, paths)).combinedFiles == AcceptedCount(Outcomes(reader, paths))
  {
    AggregateIsPartition(reader, paths);
    CombinedCountIsAcceptedFiles(reader, paths);
  }
}

=== FILE: paths.dfy ===
/** File paths: the candidate filter over a directory walk, POSIX `join`,
    `dirname` and `basename`, and the lexicographic sort of the candidates. */
module Paths {

  predicate EndsWith(s: string, suffix: string) {
    |suffix| <= |s| && s[|s| - |suffix|..] == suffix
  }

  /** The case-sensitive test of line 55: `.xlsx` or `.csv`. */
  predicate IsCandidateName(name: string) {
    EndsWith(name, ".xlsx") || EndsWith(name, ".csv")
  }

  /** One directory visited by `os.walk`: its path and the names of its files. */
  datatype WalkEntry = WalkEntry(root: string, files: seq<string>)

  /** `os.path.join(root, name)` on POSIX. */
  function Join(root: string, name: string): string {
    if |name| > 0 && name[0] == '/' then name
    else if root == [] || root[|root| - 1] == '/' then root + name
    else root + "/" + name
  }

  /** Index just after the last `/` of `p`, or 0 when there is none. */
  function BasenameStart(p: string): (k: nat)
    ensures k <= |p|
    ensures forall j :: k <= j < |p| ==> p[j] != '/'
    ensures k > 0 ==> p[k - 1] == '/'
  {
    if p == [] then 0
    else if p[|p| - 1] == '/' then |p|
    else BasenameStart(p[..|p| - 1])
  }

  /** `os.path.basename`: everything after the last `/`. */
  function Basename(p: string): string {
    p[BasenameStart(p)..]
  }

  predicate AllSlashes(s: string) {
    forall j :: 0 <= j < |s| ==> s[j] == '/'
  }

  function RStripSlashes(s: string): (r: string)
    ensures |r| <= |s| && r == s[..|r|]
    ensures r == [] || r[|r| - 1] != '/'
  {
    if s != [] && s[|s| - 1] == '/' then RStripSlashes(s[..|s| - 1]) else s
  }

  /** `os.path.dirname`: everything before the last `/`, trailing slashes
      removed unless the head consists of slashes only. */
  function Dirname(p: string): string {
    var head := p[..BasenameStart(p)];
    if head != [] && !AllSlashes(head) then RStripSlashes(head) else head
  }

  /** Splitting a joined path recovers its parts: the file name of a walked file
      (which never contains `/`) is the basename, and the walked directory is
      the dirname when it does not end in `/`. */
  lemma {:induction false} JoinThenSplit(root: string, name: string)
    requires '/' !in name
    ensures Basename(Join(root, name)) == name
    ensures root != [] && root[|root| - 1] != '/' ==> Dirname(Join(root, name)) == root
  {
    var p := Join(root, name);
    if root == [] || root[|root| - 1] == '/' {
      assert p == root + name;
      BasenameOfSuffix(root, name);
    } else {
      assert p == (root + "/") + name;
      BasenameOfSuffix(root + "/", name);
      assert p[..|root| + 1] == root + "/";
      assert !AllSlashes(root + "/") by {
        assert (root + "/")[|root| - 1] == root[|root| - 1];
      }
      assert RStripSlashes(root + "/") == RStripSlashes(root);
    }
  }

  lemma {:induction false} BasenameOfSuffix(prefix: string, name: string)
    requires '/' !in name
    requires prefix == [] || prefix[|prefix| - 1] == '/'
    ensures BasenameStart(prefix + name) == |prefix|
    ensures Basename(prefix + name) == name
  {
    if name == [] {
      assert prefix + name == prefix;
    } else {
      var p := prefix + name;
      assert p[..|p| - 1] == prefix + name[..|name| - 1];
      assert p[|p| - 1] == name[|name| - 1];
      BasenameOfSuffix(prefix, name[..|name| - 1]);
    }
  }

  /** The candidate list of lines 52-56: every accepted file of every walked
      directory, joined to its directory, in walk order. */
  function Candidates(walk: seq<WalkEntry>): seq<string> {
    if walk == [] then []
    else CandidatesIn(walk[0].root, walk[0].files) + Candidates(walk[1..])
  }

  function CandidatesIn(root: string, files: seq<string>): seq<string> {
    if files == [] then []
    else
      var here := if IsCandidateName(files[0]) then [Join(root, files[0])] else [];
      here + CandidatesIn(root, files[1..])
  }

  lemma {:induction false} CandidatesInMembers(root: string, files: seq<string>, p: string)
    ensures p in CandidatesIn(root, files) <==> exists f :: f in files && IsCandidateName(f) && p == Join(root, f)
  {
    if files != [] {
      CandidatesInMembers(root, files[1..], p);
      if p !in CandidatesIn(root, files) {
        forall f | f in files && IsCandidateName(f) ensures p != Join(root, f) {
          if f != files[0] {
            assert f in files[1..];
          }
        }
      }
    }
  }

  /** A path is a candidate exactly when it joins a walked directory with one
      of its files whose name ends in `.xlsx` or `.csv`. */
  lemma {:induction false} CandidatesMembers(walk: seq<WalkEntry>, p: string)
    ensures p in Candidates(walk) <==>
      exists k, f :: 0 <= k < |walk| && f in walk[k].files && IsCandidateName(f) && p == Join(walk[k].root, f)
  {
    if walk != [] {
      CandidatesMembers(walk[1..], p);
      CandidatesInMembers(walk[0].root, walk[0].files, p);
      if p in Candidates(walk[1..]) {
        var k, f :| 0 <= k < |walk[1..]| && f in walk[1..][k].files && IsCandidateName(f) && p == Join(walk[1..][k].root, f);
        assert walk[k + 1] == walk[1..][k];
      }
      if exists k, f :: 0 <= k < |walk| && f in walk[k].files && IsCandidateName(f) && p == Join(walk[k].root, f) {
        var k, f :| 0 <= k < |walk| && f in walk[k].files && IsCandidateName(f) && p == Join(walk[k].root, f);
        if k > 0 {
          assert walk[1..][k - 1] == walk[k];
        }
      }
    }
  }

  /** A joined path ends with the file name it was joined with. */
  lemma JoinEndsWith(root: string, name: string)
    ensures EndsWith(Join(root, name), name)
  {
    var p := Join(root, name);
    assert p[|p| - |name|..] == name;
  }

  lemma EndsWithTransitive(s: string, t: string, suffix: string)
    requires EndsWith(s, t) && EndsWith(t, suffix)
    ensures EndsWith(s, suffix)
  {
    assert s[|s| - |suffix|..] == s[|s| - |t|..][|t| - |suffix|..];
  }

  /** Every candidate path itself ends in `.xlsx` or `.csv`, as its file name does. */
  lemma CandidatesHaveCandidateNames(walk: seq<WalkEntry>, p: string)
    requires p in Candidates(walk)
    ensures IsCandidateName(p)
  {
    CandidatesMembers(walk, p);
    var k, f :| 0 <= k < |walk| && f in walk[k].files && IsCandidateName(f) && p == Join(walk[k].root, f);
    JoinEndsWith(walk[k].root, f);
    if EndsWith(f, ".xlsx") {
      EndsWithTransitive(p, f, ".xlsx");
    } else {
      EndsWithTransitive(p, f, ".csv");
    }
  }

  /** The suffix test is case-sensitive: upper-case extensions are not
      candidates, while Excel lock files `~$...` are. */
  lemma CandidateNameExamples()
    ensures !IsCandidateName("data.CSV")
    ensures !IsCandidateName("book.XLSX")
    ensures IsCandidateName("~$book.xlsx")
    ensures IsCandidateName("jan 2023.csv")
  {
    assert "data.CSV"[4..] == ".CSV";
    assert "book.XLSX"[4..] == ".XLSX";
    assert "book.XLSX"[5..] == "XLSX";
    assert "~$book.xlsx"[6..] == ".xlsx";
    assert "jan 2023.csv"[8..] == ".csv";
  }

  // ---------------------------------------------------------------------------
  // Sorting (line 59): Python orders strings by code point, lexicographically.

  /** `a <= b` in Python's string order. */
  predicate Le(a: string, b: string) {
    if a == [] then true
    else if b == [] then false
    else if a[0] != b[0] then a[0] < b[0]
    else Le(a[1..], b[1..])
  }

  lemma {:induction false} LeTotal(a: string, b: string)
    ensures Le(a, b) || Le(b, a)
  {
    if a != [] && b != [] && a[0] == b[0] {
      LeTotal(a[1..], b[1..]);
    }
  }

  lemma {:induction false} LeReflexive(a: string)
    ensures Le(a, a)
  {
    if a != [] {
      LeReflexive(a[1..]);
    }
  }

  lemma {:induction false} LeAntisymmetric(a: string, b: string)
    requires Le(a, b) && Le(b, a)
    ensures a == b
  {
    if a != [] && b != [] {
      LeAntisymmetric(a[1..], b[1..]);
      assert a == [a[0]] + a[1..] && b == [b[0]] + b[1..];
    }
  }

  lemma {:induction false} LeTransitive(a: string, b: string, c: string)
    requires Le(a, b) && Le(b, c)
    ensures Le(a, c)
  {
    if a != [] && b != [] && c != [] && a[0] == b[0] && b[0] == c[0] {
      LeTransitive(a[1..], b[1..], c[1..]);
    }
  }

  predicate Sorted(s: seq<string>) {
    forall i, j :: 0 <= i < j < |s| ==> Le(s[i], s[j])
  }

  function Insert(x: string, s: seq<string>): (r: seq<string>)
    requires Sorted(s)
    ensures Sorted(r)
    ensures multiset(r) == multiset(s) + multiset{x}
  {
    if s == [] then [x]
    else if Le(x, s[0]) then
      assert forall j :: 0 <= j < |s| ==> Le(x, s[j]) by {
        forall j | 0 <= j < |s| ensures Le(x, s[j]) {
          if j > 0 { LeTransitive(x, s[0], s[j]); }
        }
      }
      ConsSorted(x, s);
      [x] + s
    else
      LeTotal(x, s[0]);
      var rest := Insert(x, s[1..]);
      assert s == [s[0]] + s[1..];
      var others := [x] + s[1..];
      assert multiset(rest) == multiset(others);
      assert forall j :: 0 <= j < |others| ==> Le(s[0], others[j]) by {
        forall j | 0 <= j < |others| ensures Le(s[0], others[j]) {
          if j > 0 { assert others[j] == s[j]; }
        }
      }
      LowerBoundOfPermutation(s[0], rest, others);
      ConsSorted(s[0], rest);
      [s[0]] + rest
  }

  /** Putting a lower bound in front of a sorted sequence keeps it sorted. */
  lemma ConsSorted(y: string, r: seq<string>)
    requires Sorted(r)
    requires forall j :: 0 <= j < |r| ==> Le(y, r[j])
    ensures Sorted([y] + r)
  {
    var t := [y] + r;
    forall i, j | 0 <= i < j < |t| ensures Le(t[i], t[j]) {
      assert t[j] == r[j - 1];
      if i > 0 {
        assert t[i] == r[i - 1];
      }
    }
  }

  /** A lower bound of every element is a lower bound of every permutation. */
  lemma LowerBoundOfPermutation(y: string, a: seq<string>, b: seq<string>)
    requires multiset(a) == multiset(b)
    requires forall j :: 0 <= j < |b| ==> Le(y, b[j])
    ensures forall j :: 0 <= j < |a| ==> Le(y, a[j])
  {
    forall j | 0 <= j < |a| ensures Le(y, a[j]) {
      assert a[j] in multiset(b);
      var k :| 0 <= k < |b| && b[k] == a[j];
    }
  }

  /** `all_files.sort()`: the candidates in ascending string order. */
  function SortPaths(s: seq<string>): (r: seq<string>)
    ensures Sorted(r)
    ensures multiset(r) == multiset(s)
  {
    if s == [] then []
    else
      assert s == [s[0]] + s[1..];
      Insert(s[0], SortPaths(s[1..]))
  }

  lemma SortedHeadIsLeast(a: seq<string>, x: string)
    requires Sorted(a) && x in multiset(a)
    ensures Le(a[0], x)
  {
    var i :| 0 <= i < |a| && a[i] == x;
    if i == 0 {
      LeReflexive(x);
    }
  }

  lemma TailMultiset(a: seq<string>)
    requires a != []
    ensures multiset(a[1..]) == multiset(a) - multiset{a[0]}
  {
    assert a == [a[0]] + a[1..];
  }

  /** The sorted order is the only one: any two ascending arrangements of the
      same paths are identical, so the processing order does not depend on the
      order of the walk. */
  lemma {:induction false} SortedIsUnique(a: seq<string>, b: seq<string>)
    requires Sorted(a) && Sorted(b)
    requires multiset(a) == multiset(b)
    ensures a == b
  {
    if a != [] {
      assert |b| == |a| by { assert |multiset(a)| == |multiset(b)|; }
      SortedHeadIsLeast(b, a[0]);
      SortedHeadIsLeast(a, b[0]);
      LeAntisymmetric(a[0], b[0]);
      TailMultiset(a);
      TailMultiset(b);
      SortedIsUnique(a[1..], b[1..]);
    }
  }

  /** Sorting ignores the walk order. */
  lemma SortPathsIgnoresOrder(s: seq<string>, t: seq<string>)
    requires multiset(s) == multiset(t)
    ensures SortPaths(s) == SortPaths(t)
  {
    SortedIsUnique(SortPaths(s), SortPaths(t));
  }
}

=== FILE: schema.dfy ===
/** The fixed reference schema and the three-way reconciliation of a file's
    headers against it (accept by name, accept by position, reject). */
module Schema {
  import opened Wrappers
  import opened Normalize

  /** A cell of a table; `None` is a null cell. */
  type Cell = Option<string>

  /** `standard_columns`: the reference columns, already in canonical form. */
  const StandardColumns: seq<string> := [
    "year", "month", "erssn", "ername", "eessn", "eename", "minc",
    "ss1eerate", "ss1errate", "ss1eeconamt", "ss1erconamt",
    "ss2eerate", "ss2errate", "ss2eeconamt", "ss2erconamt", "totalconamt"
  ]

  /** `STANDARD_COLUMN_COUNT`. */
  const StandardColumnCount: nat := |StandardColumns|

  function StandardSet(): set<string> {
    set c | c in StandardColumns
  }

  predicate Distinct<T(==)>(s: seq<T>) {
    forall i, j :: 0 <= i < j < |s| ==> s[i] != s[j]
  }

  /** The set of canonical tokens of a header row. */
  function TokenSet(headers: seq<string>): set<string> {
    set t | t in NormalizeHeaders(headers)
  }

  /** How a file's columns are reconciled with the reference schema. */
  datatype Outcome =
    | ByName(rename: map<string, string>)
    | ByPosition
    | Rejected(missing: set<string>, extra: set<string>, foundCount: nat)

  // ---------------------------------------------------------------------------
  // The reference schema

  lemma StandardColumnsDistinct()
    ensures Distinct(StandardColumns)
  {
  }

  lemma StandardColumnsAreTokens()
    ensures forall i :: 0 <= i < |StandardColumns| ==> IsToken(StandardColumns[i])
  {
  }

  /** The reference schema has 16 pairwise distinct columns, each its own token. */
  lemma StandardColumnsWellFormed()
    ensures StandardColumnCount == 16
    ensures Distinct(StandardColumns)
    ensures forall i :: 0 <= i < |StandardColumns| ==> IsToken(StandardColumns[i])
    ensures NormalizeHeaders(StandardColumns) == StandardColumns
    ensures |StandardSet()| == 16
  {
    StandardColumnsDistinct();
    StandardColumnsAreTokens();
    forall i | 0 <= i < |StandardColumns|
      ensures NormalizeString(StandardColumns[i]) == StandardColumns[i]
    {
      NormalizeFixesTokens(StandardColumns[i]);
    }
    DistinctCardinality(StandardColumns);
  }

  /** A sequence without repetitions has as many distinct elements as entries. */
  lemma {:induction false} DistinctCardinality<T>(s: seq<T>)
    requires Distinct(s)
    ensures |set x | x in s| == |s|
  {
    if s != [] {
      DistinctCardinality(s[1..]);
      assert (set x | x in s) == {s[0]} + (set x | x in s[1..]);
      assert s[0] !in (set x | x in s[1..]);
    }
  }

  // ---------------------------------------------------------------------------
  // Reconciliation

  /** The dict comprehension of line 101: each header whose token is a reference
      column is mapped to that column. A header that occurs twice is one key with
      one value. */
  function RenameMap(headers: seq<string>): (m: map<string, string>)
    ensures m.Keys == set h | h in headers && NormalizeString(h) in StandardColumns
    ensures forall h :: h in m ==> m[h] == NormalizeString(h) && m[h] in StandardColumns
  {
    if headers == [] then map[]
    else
      var init := headers[..|headers| - 1];
      var h := headers[|headers| - 1];
      var t := NormalizeString(h);
      assert headers == init + [h];
      var m := RenameMap(init);
      var keys := set x | x in init && NormalizeString(x) in StandardColumns;
      assert m.Keys == keys;
      if t in StandardColumns then
        assert (set x | x in headers && NormalizeString(x) in StandardColumns) == keys + {h};
        m[h := t]
      else
        assert (set x | x in headers && NormalizeString(x) in StandardColumns) == keys;
        m
  }

  /** Every header's token belongs to the token set, and every member of the
      token set is the token of some header. */
  lemma TokenSetMembers(headers: seq<string>)
    ensures forall i :: 0 <= i < |headers| ==> NormalizeString(headers[i]) in TokenSet(headers)
    ensures forall t :: t in TokenSet(headers) ==> exists i :: 0 <= i < |headers| && NormalizeString(headers[i]) == t
  {
    var tokens := NormalizeHeaders(headers);
    forall i | 0 <= i < |headers| ensures NormalizeString(headers[i]) in TokenSet(headers) {
      assert tokens[i] == NormalizeString(headers[i]);
    }
  }

  /** When the token set is the reference set, the rename map covers every
      header and every reference column. */
  lemma RenameMapUnderByName(headers: seq<string>)
    requires TokenSet(headers) == StandardSet()
    ensures RenameMap(headers).Keys == set h | h in headers
    ensures RenameMap(headers).Values == StandardSet()
  {
    var m := RenameMap(headers);
    TokenSetMembers(headers);
    forall h | h in headers ensures h in m {
      var i :| 0 <= i < |headers| && headers[i] == h;
      assert NormalizeString(h) in StandardSet();
    }
    forall c | c in StandardSet() ensures c in m.Values {
      var i :| 0 <= i < |headers| && NormalizeString(headers[i]) == c;
      assert headers[i] in m && m[headers[i]] == c;
    }
  }

  /** `set(normalized_cols) == set(standard_columns)` decides acceptance by name,
      the column count decides acceptance by position, and anything else is a
      mismatch whose record is computed from token-set differences. */
  function Reconcile(headers: seq<string>): (r: Outcome)
    ensures r.ByName? <==> TokenSet(headers) == StandardSet()
    ensures r.ByPosition? <==> TokenSet(headers) != StandardSet() && |headers| == StandardColumnCount
    ensures r.Rejected? <==> TokenSet(headers) != StandardSet() && |headers| != StandardColumnCount
    ensures r.ByName? ==>
      && r.rename.Keys == set h | h in headers
      && (forall h :: h in r.rename ==> r.rename[h] == NormalizeString(h))
      && r.rename.Values == StandardSet()
    ensures r.Rejected? ==>
      && r.missing == StandardSet() - TokenSet(headers)
      && r.extra == TokenSet(headers) - StandardSet()
      && r.foundCount == |headers|
  {
    var tokens := NormalizeHeaders(headers);
    if TokenSet(headers) == StandardSet() then
      RenameMapUnderByName(headers);
      ByName(RenameMap(headers))
    else if |tokens| == StandardColumnCount then
      ByPosition
    else
      Rejected(StandardSet() - TokenSet(headers), TokenSet(headers) - StandardSet(), |tokens|)
  }

  /** A mismatch record is well formed: `missing` lists absent reference columns,
      `extra` lists unknown tokens, they do not overlap, they are not both empty,
      and the found count is never the expected one. */
  lemma RejectionIsWellFormed(headers: seq<string>)
    requires Reconcile(headers).Rejected?
    ensures var r := Reconcile(headers);
      && r.missing <= StandardSet()
      && r.extra !! StandardSet()
      && r.missing !! r.extra
      && (r.missing != {} || r.extra != {})
      && r.foundCount != 16
  {
    StandardColumnsWellFormed();
    var r := Reconcile(headers);
    if r.missing == {} && r.extra == {} {
      assert false;
    }
  }

  /** Headers whose tokens are pairwise distinct are accepted by name only when
      there are exactly 16 of them. */
  lemma ByNameWithDistinctTokensHasSixteen(headers: seq<string>)
    requires Reconcile(headers).ByName?
    requires Distinct(NormalizeHeaders(headers))
    ensures |headers| == 16
  {
    StandardColumnsWellFormed();
    DistinctCardinality(NormalizeHeaders(headers));
  }

  /** Under acceptance by name every header is renamed to the unique reference
      column equal to its token. */
  lemma ByNameRenamesToUniqueColumn(headers: seq<string>, h: string) returns (k: nat)
    requires Reconcile(headers).ByName?
    requires h in headers
    ensures k < 16 && StandardColumns[k] == Reconcile(headers).rename[h] == NormalizeString(h)
    ensures forall k' :: 0 <= k' < 16 && StandardColumns[k'] == NormalizeString(h) ==> k' == k
  {
    StandardColumnsDistinct();
    var m := Reconcile(headers).rename;
    assert h in m;
    var c := m[h];
    assert c == NormalizeString(h);
    assert c in m.Values;
    assert c in StandardSet();
    k :| 0 <= k < 16 && StandardColumns[k] == c;
  }

  // ---------------------------------------------------------------------------
  // Selecting the reference columns after the rename (line 103)

  /** The cells of the columns whose token is `c`, in column order. */
  function ColumnsLabelled(tokens: seq<string>, row: seq<Cell>, c: string): seq<Cell> {
    if tokens == [] || row == [] then []
    else (if tokens[0] == c then [row[0]] else []) + ColumnsLabelled(tokens[1..], row[1..], c)
  }

  /** `df[cols]`: for each requested label, every column carrying it. */
  function SelectColumns(tokens: seq<string>, row: seq<Cell>, cols: seq<string>): seq<Cell> {
    if cols == [] then []
    else ColumnsLabelled(tokens, row, cols[0]) + SelectColumns(tokens, row, cols[1..])
  }

  /** The cells of the columns whose token lies in `s`, in column order. */
  function ColumnsIn(tokens: seq<string>, row: seq<Cell>, s: set<string>): seq<Cell> {
    if tokens == [] || row == [] then []
    else (if tokens[0] in s then [row[0]] else []) + ColumnsIn(tokens[1..], row[1..], s)
  }

  lemma {:induction false} ColumnsInAddLabel(tokens: seq<string>, row: seq<Cell>, c: string, s: set<string>)
    requires c !in s
    ensures multiset(ColumnsLabelled(tokens, row, c)) + multiset(ColumnsIn(tokens, row, s))
         == multiset(ColumnsIn(tokens, row, {c} + s))
  {
    if tokens != [] && row != [] {
      ColumnsInAddLabel(tokens[1..], row[1..], c, s);
    }
  }

  lemma {:induction false} SelectIsColumnsIn(tokens: seq<string>, row: seq<Cell>, cols: seq<string>)
    requires Distinct(cols)
    ensures multiset(SelectColumns(tokens, row, cols)) == multiset(ColumnsIn(tokens, row, set c | c in cols))
  {
    if cols == [] {
      assert (set c | c in cols) == {};
      ColumnsInNone(tokens, row);
    } else {
      var rest := cols[1..];
      assert Distinct(rest) by {
        forall i, j | 0 <= i < j < |rest| ensures rest[i] != rest[j] {
          assert rest[i] == cols[i + 1] && rest[j] == cols[j + 1];
        }
      }
      var restSet := set c | c in rest;
      assert cols[0] !in restSet;
      assert (set c | c in cols) == {cols[0]} + restSet;
      SelectIsColumnsIn(tokens, row, rest);
      ColumnsInAddLabel(tokens, row, cols[0], restSet);
    }
  }

  lemma {:induction false} ColumnsInNone(tokens: seq<string>, row: seq<Cell>)
    ensures ColumnsIn(tokens, row, {}) == []
  {
    if tokens != [] && row != [] {
      ColumnsInNone(tokens[1..], row[1..]);
    }
  }

  lemma {:induction false} ColumnsInAll(tokens: seq<string>, row: seq<Cell>, s: set<string>)
    requires |tokens| == |row|
    requires forall i :: 0 <= i < |tokens| ==> tokens[i] in s
    ensures ColumnsIn(tokens, row, s) == row
  {
    if tokens != [] {
      ColumnsInAll(tokens[1..], row[1..], s);
      assert row == [row[0]] + row[1..];
    }
  }

  lemma TokensAreReference(headers: seq<string>)
    requires TokenSet(headers) == StandardSet()
    ensures forall i :: 0 <= i < |headers| ==> NormalizeHeaders(headers)[i] in StandardSet()
  {
    TokenSetMembers(headers);
  }

  lemma SelectionOfReferenceTokens(tokens: seq<string>, row: seq<Cell>)
    requires |row| == |tokens|
    requires forall i :: 0 <= i < |tokens| ==> tokens[i] in StandardSet()
    ensures multiset(SelectColumns(tokens, row, StandardColumns)) == multiset(row)
  {
    StandardColumnsDistinct();
    SelectIsColumnsIn(tokens, row, StandardColumns);
    ColumnsInAll(tokens, row, StandardSet());
  }

  /** Under acceptance by name, selecting the reference columns takes every cell
      of the row exactly once: the result is a permutation of the row. */
  lemma ByNameSelectionPermutesRow(headers: seq<string>, row: seq<Cell>)
    requires Reconcile(headers).ByName?
    requires |row| == |headers|
    ensures multiset(SelectColumns(NormalizeHeaders(headers), row, StandardColumns)) == multiset(row)
  {
    assert TokenSet(headers) == StandardSet();
    TokensAreReference(headers);
    SelectionOfReferenceTokens(NormalizeHeaders(headers), row);
  }

  /** A label carried by no column selects nothing. */
  lemma {:induction false} LabelledNone(tokens: seq<string>, row: seq<Cell>, c: string)
    requires forall i :: 0 <= i < |tokens| ==> tokens[i] != c
    ensures ColumnsLabelled(tokens, row, c) == []
  {
    if tokens != [] && row != [] {
      LabelledNone(tokens[1..], row[1..], c);
    }
  }

  /** A label carried by exactly one column selects that column's cell. */
  lemma {:induction false} LabelledOnce(tokens: seq<string>, row: seq<Cell>, j: nat)
    requires |row| == |tokens| && j < |tokens|
    requires forall i :: 0 <= i < |tokens| && i != j ==> tokens[i] != tokens[j]
    ensures ColumnsLabelled(tokens, row, tokens[j]) == [row[j]]
  {
    if j == 0 {
      LabelledNone(tokens[1..], row[1..], tokens[0]);
    } else {
      assert tokens[0] != tokens[j];
      assert tokens[1..][j - 1] == tokens[j];
      LabelledOnce(tokens[1..], row[1..], j - 1);
    }
  }

  /** With pairwise distinct labels, each requested label present in the frame
      contributes exactly its own column's cell, at its position in the request. */
  lemma {:induction false} SelectDistinctLabels(tokens: seq<string>, row: seq<Cell>, cols: seq<string>)
    requires |row| == |tokens|
    requires Distinct(tokens)
    requires forall k :: 0 <= k < |cols| ==> cols[k] in tokens
    ensures |SelectColumns(tokens, row, cols)| == |cols|
    ensures forall k, j :: 0 <= k < |cols| && 0 <= j < |tokens| && tokens[j] == cols[k] ==>
      SelectColumns(tokens, row, cols)[k] == row[j]
  {
    if cols != [] {
      var j0 :| 0 <= j0 < |tokens| && tokens[j0] == cols[0];
      LabelledOnce(tokens, row, j0);
      SelectDistinctLabels(tokens, row, cols[1..]);
      var sel := SelectColumns(tokens, row, cols);
      assert sel == [row[j0]] + SelectColumns(tokens, row, cols[1..]);
      forall k, j | 0 <= k < |cols| && 0 <= j < |tokens| && tokens[j] == cols[k]
        ensures sel[k] == row[j]
      {
        if k == 0 {
          assert j == j0;
        } else {
          assert cols[1..][k - 1] == cols[k];
        }
      }
    }
  }

  /** Line 103 after a by-name rename with pairwise distinct tokens: the
      selected row has exactly the 16 reference columns, and its k-th cell is
      the cell of the header whose token is the k-th reference column. */
  lemma ByNameSelectionIsReordering(headers: seq<string>, row: seq<Cell>)
    requires Reconcile(headers).ByName?
    requires |row| == |headers|
    requires Distinct(NormalizeHeaders(headers))
    ensures |SelectColumns(NormalizeHeaders(headers), row, StandardColumns)| == 16
    ensures forall k, j :: 0 <= k < 16 && 0 <= j < |headers| && NormalizeString(headers[j]) == StandardColumns[k] ==>
      SelectColumns(NormalizeHeaders(headers), row, StandardColumns)[k] == row[j]
  {
    var tokens := NormalizeHeaders(headers);
    assert TokenSet(headers) == StandardSet();
    forall k | 0 <= k < |StandardColumns| ensures StandardColumns[k] in tokens {
      assert StandardColumns[k] in StandardSet();
    }
    SelectDistinctLabels(tokens, row, StandardColumns);
  }
}

=== FILE: wrappers.dfy ===
/** Failure-compatible result types used in place of the script's exceptions
    and of pandas' missing values. */
module Wrappers {

  /** A cell value: `None` stands for a null (NaN/None) cell. */
  datatype Option<+T> = None | Some(value: T)

  /** The outcome of a step that may raise: `Failure` carries the exception text. */
  datatype Result<+R> = Success(value: R) | Failure(error: string)
}
